=== FILE: README.md ===
# Filter Alchemy, modelled in Dafny

Filter Alchemy is a browser toy built around a canvas pipeline. An image is
drawn into an RGBA buffer. Up to four filter configurations, each sitting in a
slot, are applied to it in order. A puzzle mode draws a secret list of filters
from the catalog and scores the player's slots against it, byte by byte.

This project models the core of that program:

- **Frames and the byte store** (`clamp.dfy`, `frame.dfy`). A frame is a
  width, a height and a flat RGBA buffer. Every number written to the buffer
  goes through the ToUint8Clamp conversion of section 7.1.12 of ECMA-262:
  clamp to [0, 255], then round to the nearest integer with ties to even.
  JavaScript's `0 / 0` is NaN, which that conversion stores as 0; `Mean`
  models this.
- **The five modelled kernels** (`kernels.dfy`): invert, grayscale, comic
  book (three-level posterisation through `quantizeLevel`), pixelate (each
  `p`-aligned tile gets the mean colour of its in-bounds pixels) and box blur
  (each pixel gets the mean of the clipped (2r+1) x (2r+1) window). Each
  kernel is a pure function from a frame to a frame. The properties proved
  about them include involution, idempotence, fixed points and the fact that
  results stay between bounds.
- **The kernels' loops** (`kernel_loops.dfy`). These are the in-place loops
  as written: the stride-4 byte loops and the nested tile and window loops.
  Each is a method proved to compute exactly the pure kernel.
- **The catalog** (`catalog.dfy`): the seven entries, their default
  configurations, the `??` and `||` fallbacks on configuration fields, and
  the dispatch from a configuration's `type` to its kernel.
- **The pipeline** (`pipeline.dfy`). This covers the slot fold that renders
  the live view, the list fold that builds the puzzle's target, and the loop
  that applies the player's slots.
- **Slot edits** (`slots.dfy`, `puzzles.dfy`). These are the drag-and-drop
  transitions of the live view and of puzzle mode.
- **Puzzle mode** (`puzzles.dfy`). This covers the byte comparison and its
  percentage, `randomPick`, the Fisher-Yates `shuffleArray`, and the choice of
  the secret list in `newPuzzle`.

Two details of the source are modelled as the code behaves, not as its
comments or a quick reading suggest:

- `quantizeLevel` (js/filters.js:380-386) carries a comment describing three
  bands. The code itself maps values below 85 to 0, values below 170 to 128
  and the rest to 255. `Kernels.Quantize` follows the code.
- A slot dragged onto itself first receives its own content and is then
  emptied (js/main.js:62-63, js/puzzles.js:202-203). `Slots.Move` therefore
  leaves the source slot empty even when source and target coincide.

Arithmetic is exact: configuration fields and intermediate values are
`real`, bytes are `int` constrained to [0, 255], and every store into the
buffer is written out as `Clamp8`. `Math.random` is replaced by an explicit
sequence of draws in [0, 1), consumed in the order the source calls it. The
two kernels not modelled here, swirl and colour fade, enter as a function
parameter `ext`. Both must keep a frame's shape and byte range. Colour fade
must also keep alpha, because it scales only the red, green and blue bytes
(js/filters.js:96-98). Swirl copies whole pixels, alpha included
(js/filters.js:307-310), so nothing is assumed about its alpha.

## Model

| member | source | states |
|---|---|---|
| `Uint8Clamp.Clamp8` | js/filters.js:16-18 | a number written into the pixel buffer becomes a byte; anything at or below 0 is stored as 0, anything at or above 255 as 255; an exact half goes to its even neighbour |
| `Uint8Clamp.Clamp8Ties` | js/filters.js:240-243 | the half-way means that blur and pixelate produce are stored round-half-to-even: 31 / 2 as 16, 127.5 and 128.5 both as 128 |
| `Uint8Clamp.Clamp8Rounds` | js/filters.js:55-57 | inside [0, 255] the stored byte is within one half of the written number |
| `Uint8Clamp.Clamp8Between` | js/filters.js:240-243 | a number between two bytes is stored as a byte between the same two bytes |
| `Uint8Clamp.Mean` | js/filters.js:161-163 | an average written into the buffer is a byte; a zero count (0 / 0, NaN) stores 0, and a positive count stores the quotient |
| `Kernels.Invert` | js/filters.js:12-19 | invert yields a valid frame of the same size whose alpha bytes are untouched |
| `Kernels.InvertFullComplements` | js/filters.js:16-18 | at full strength every colour byte v becomes 255 - v |
| `Kernels.InvertInvolution` | js/filters.js:15-19 | full-strength inversion applied twice gives back the original frame |
| `Kernels.InvertNoneIsIdentity` | js/filters.js:14-19 | strength 0 leaves the frame unchanged |
| `Kernels.InvertBlends` | js/filters.js:16-18 | for a strength in [0, 1] each stored byte lies between v and 255 - v |
| `KernelLoops.InvertLoop` | js/filters.js:13-19 | the stride-4 in-place loop leaves exactly the frame that the pure invert describes |
| `Kernels.Grayscale` | js/filters.js:51-58 | grayscale yields a valid frame of the same size with alpha untouched |
| `Kernels.LumaWithinChannels` | js/filters.js:54-57 | the stored luma lies between the pixel's smallest and largest colour byte |
| `Kernels.GrayscaleIsGray` | js/filters.js:54-57 | after grayscale each pixel's red, green and blue bytes are equal |
| `Kernels.GrayByteOfGray` | js/filters.js:54 | the luma of an already gray pixel is its own value |
| `Kernels.GrayscaleIdempotent` | js/filters.js:51-58 | applying grayscale twice gives the same frame as applying it once |
| `KernelLoops.GrayscaleLoop` | js/filters.js:52-58 | the in-place loop leaves exactly the frame that the pure grayscale describes |
| `Kernels.Quantize` | js/filters.js:380-386 | every byte is posterised to 0, 128 or 255: 0 exactly below 85, 128 exactly from 85 to 169, 255 exactly from 170 on |
| `Kernels.QuantizeMonotoneAndStable` | js/filters.js:380-386 | posterisation keeps the order of bytes and maps each level to itself |
| `Kernels.ComicBook` | js/filters.js:367-376 | comic book keeps size and alpha, and every colour byte ends up as the posterised level of the original byte: 0, 128 or 255 |
| `Kernels.ComicBookBands` | js/filters.js:372-385 | opaque gray pixels of value 40, 90 and 200 become black, 128-gray and white |
| `Kernels.ComicBookIdempotent` | js/filters.js:372-376 | applying comic book twice gives the same frame as applying it once |
| `KernelLoops.ComicBookLoop` | js/filters.js:368-376 | the in-place loop leaves exactly the frame that the pure comic-book kernel describes |
| `Kernels.TileContains` | js/filters.js:144-145 | the tile visited for a coordinate is p-aligned, contains it, and is the only p-aligned tile that does |
| `Kernels.Pixelate` | js/filters.js:133-179 | pixelate yields a valid frame of the same size with alpha untouched |
| `Kernels.PixelateCountPositive` | js/filters.js:152-157 | the tile of an in-bounds pixel counts at least one pixel, so its average is never 0 / 0 |
| `Kernels.PixelateTileUniform` | js/filters.js:166-177 | two pixels in the same tile receive the same colour |
| `Kernels.PixelateWithinTile` | js/filters.js:147-163 | a pixel's new colour lies between the least and greatest value of that channel in its tile |
| `Kernels.PixelateOneIsIdentity` | js/filters.js:133-179 | tiles of size 1 leave the frame unchanged |
| `KernelLoops.WindowSums` | js/filters.js:147-160 | the accumulation loop adds up each colour channel and counts the pixels of the window that fall inside the frame |
| `KernelLoops.FillTile` | js/filters.js:166-177 | filling one tile extends the finished region by exactly that tile, writing its average into each in-bounds pixel |
| `KernelLoops.PixelateTile` | js/filters.js:146-177 | one tile: its sums are read from the copy and its average written, so the finished region grows by exactly that tile |
| `KernelLoops.PixelateRow` | js/filters.js:145-178 | one row of tiles, left to right, finishes the whole band of rows the tiles cover |
| `KernelLoops.PixelateLoop` | js/filters.js:142-179 | the tile loops over a copy of the buffer leave exactly the frame that the pure pixelate describes |
| `Kernels.Blur` | js/filters.js:211-245 | blur yields a valid frame of the same size with alpha untouched |
| `Kernels.BlurWithinWindow` | js/filters.js:226-243 | a blurred byte lies between the least and greatest value of that channel in its clipped window |
| `Kernels.BlurFlatIsFixed` | js/filters.js:224-245 | a frame of one flat colour is left unchanged by a blur of any radius |
| `KernelLoops.BlurLoop` | js/filters.js:216-245 | the pixel loops reading the copy and writing the buffer leave exactly the frame that the pure blur describes |
| `Frames.BoxCountIsArea` | js/filters.js:231 | the number of in-bounds pixels of a window is the product of its clipped width and height |
| `Frames.BoxSumBounds` | js/filters.js:232-234 | a window sum lies between count times the least and count times the greatest value in the window |
| `Catalog.Lookup` | js/main.js:201-202 | a configuration's type resolves to the catalog entry with that key, and an unknown type resolves to none |
| `Catalog.CatalogKeys` | js/puzzles.js:88 | every entry is found under its own key, and the listed keys are exactly the catalog's seven keys, each once |
| `Catalog.DefaultConfig` | js/filters.js:11 | each entry's default configuration carries its own key as type and well-formed fields (defaults at lines 11, 50, 73-77, 132, 210, 276 and 366) |
| `Catalog.CountOr` | js/filters.js:135 | a present non-zero size is used as given; a missing or zero size falls back to the default; the size used is at least 1 |
| `Catalog.Kernel` | js/main.js:201-204 | each entry runs its own kernel (invert with the configured strength, pixelate and blur with the configured size, grayscale and comic book as they are, colour fade and swirl through `ext`); every kernel keeps a frame valid and of the same size, and every kernel but swirl keeps its alpha |
| `Catalog.InvertStrengthDefault` | js/filters.js:14 | through `InvertStrength`, a missing strength means full inversion, while an explicit 0 is kept and leaves the frame as it was |
| `Catalog.PixelSizeDefault` | js/filters.js:135 | through `PixelSize`, a missing or zero tile size means 8, and a size of 1 leaves the frame as it was |
| `Catalog.BlurRadiusDefault` | js/filters.js:213 | through `BlurRadius`, a missing or zero intensity means radius 1, and a flat frame is left as it was whatever the radius |
| `Pipeline.ApplyOne` | js/puzzles.js:368-371 | one step runs the catalog kernel of the configuration's type, or changes nothing when the type is unknown; the frame stays valid and of the same size |
| `Pipeline.ApplyList` | js/puzzles.js:367-372 | running a list of configurations keeps the frame valid and of the same size |
| `Pipeline.ApplySlots` | js/main.js:199-206 | running the slots keeps the frame valid and of the same size |
| `Pipeline.Present` | js/puzzles.js:303-304 | the configurations held by the slots, in order: exactly those found in some slot |
| `Pipeline.ApplySlotsIsApplyList` | js/puzzles.js:303-310 | running the slots equals running the list of their configurations, so empty slots contribute nothing |
| `Pipeline.ApplyListAppend` | js/puzzles.js:367-372 | filters run in list order: running a + b is running a and then b |
| `Pipeline.ApplyListSkipsUnknown` | js/puzzles.js:369-370 | a configuration of unknown type is skipped without affecting those around it |
| `Pipeline.ApplyListKeepsAlpha` | js/main.js:199-206 | a list without a swirl never changes alpha |
| `Pipeline.EmptySlotsAreIdentity` | js/main.js:199-206 | with every slot empty, the rendered frame is the source frame |
| `Pipeline.DoubleInvertCancels` | js/puzzles.js:367-372 | one default invert in the list is a full inversion, and two in a row give back the source frame |
| `Pipeline.RepeatedEntryIsIdle` | js/puzzles.js:367-372 | one default grayscale or comic book in the list runs that kernel, and a second one right after changes nothing |
| `Slots.Move` | js/main.js:62-63 | a move puts the source slot's content into the target, empties the source, and changes no other slot |
| `Slots.SlotDrop` | js/main.js:51-89 | a drop with no key, no target or an unknown source changes nothing; a bank drop installs the default unless the slot already holds that type; a slot drop is a move |
| `Slots.DocumentDrop` | js/main.js:129-147 | a slot dragged out and dropped outside every slot is emptied, and nothing else changes |
| `Slots.EditsKeepSlotsOk` | js/main.js:58-87 | every edit keeps four slots holding well-formed configurations |
| `Slots.BankDropIdempotent` | js/main.js:84-87 | dropping the same bank entry on the same slot twice is the same as dropping it once |
| `Slots.MoveBackRestores` | js/main.js:62-63 | moving a filter to an empty slot and back restores the slots |
| `Puzzles.MatchCount` | js/puzzles.js:337-342 | the number of matching positions never exceeds the buffer length |
| `Puzzles.MatchCountSymmetric` | js/puzzles.js:339 | the count does not depend on which buffer is the player's |
| `Puzzles.MatchCountSelf` | js/puzzles.js:337-342 | a buffer matches itself at every position |
| `Puzzles.SameCount` | js/puzzles.js:337-342 | the counting loop counts the positions where the bytes differ by less than 5 |
| `Puzzles.CompareAndScore` | js/puzzles.js:323-346 | frames of different size, or a missing target, give no score; otherwise every byte is compared |
| `Puzzles.Percentage` | js/puzzles.js:343-344 | the score is absent exactly for a zero total (a case the page never reaches), lies in [0, 100], and is 100 exactly when every byte matches |
| `Puzzles.SolvedPuzzleScoresFull` | js/puzzles.js:303-344 | slots that hold a secret list without a colour fade, in order and with any gaps, score 100% |
| `Puzzles.ScoreFloor` | js/puzzles.js:338-342 | two frames with the same alpha bytes match on at least a quarter of the buffer |
| `Puzzles.PuzzleScoreFloor` | js/puzzles.js:303-344 | when neither list holds a swirl, every attempt scores at least 25% |
| `Puzzles.DrawIndex` | js/puzzles.js:394 | a draw in [0, 1) scaled and floored is an index inside a non-empty array |
| `Puzzles.RandomPick` | js/puzzles.js:393-396 | a pick from a non-empty array is one of its elements, and a pick from an empty one is nothing |
| `Puzzles.ShuffleArray` | js/puzzles.js:401-408 | the shuffle returns a permutation of its input |
| `Puzzles.ShuffledKeys` | js/puzzles.js:88-90 | a shuffle of the catalog's keys lists each known key exactly once |
| `Puzzles.SecretFor` | js/puzzles.js:93 | the secret holds, for each chosen key in order, that entry's default configuration |
| `Puzzles.NewPuzzle` | js/puzzles.js:76-93 | a new puzzle has empty slots, an image from the list, and 1 to 3 secret filters of distinct types, each in its default configuration |
| `Puzzles.PuzzleSlotDrop` | js/puzzles.js:192-227 | in puzzle mode a bank drop always installs the default configuration, and a slot drop is a move |
| `Puzzles.BankDropsCompared` | js/puzzles.js:214-224 | the two views' bank drops agree except on a slot already holding the dropped type, which only the live view keeps |
| `Puzzles.PuzzleEditsKeepSlotsOk` | js/puzzles.js:192-227 | puzzle-mode edits keep four slots holding well-formed configurations |

## Left out

- Swirl and colour fade (js/filters.js:69-125, 273-359) are not modelled. Their kernels enter as the parameter `ext`. It is assumed to keep shape and byte range, and for colour fade also alpha. Colour fade's mutation of its own `phase` field (js/filters.js:82) is not modelled either.
- Puzzles.SolvedPuzzleScoresFull: does not promise 100% for a secret holding a colour fade, and the page does not reach it either. Every run of colour fade advances its `phase` (js/filters.js:82). The secret's copy runs once when the target image is drawn (js/puzzles.js:96) and again on every comparison (js/puzzles.js:367-371). The player's copy starts at phase 0 when dropped (js/puzzles.js:223). So the player's phase always lags, and the colour bytes differ.
- Floating point: configuration values and intermediate results are exact reals. So the luma weights 0.299, 0.587 and 0.114 are exact rationals, and a double rounding that lands exactly on a .5 boundary may store a different byte than the browser would.
- Catalog.WellFormed: `pixelSize` and `intensity` are assumed absent or non-negative integers. The sliders only store `parseInt` results there; a fractional or negative size, which the source would accept through hand-made JSON, is not modelled.
- Slots.DocumentDrop: the live view checks `classList.contains('slot')` and puzzle mode checks `closest('.slot')`. Both are abstracted to one boolean, whether the drop landed on a slot.
- DragSource: the slot index travels through `dataTransfer` as a string. It is modelled as a valid slot index, so a missing or malformed index is not modelled.
- Puzzles.CompareAndScore: the score's `toFixed(1)` text and the "Size mismatch" message are not modelled. The comparison result and `Puzzles.Percentage` stand for them. A zero-sized buffer never reaches the comparison, because `getImageData` throws on a canvas with no width or height (js/puzzles.js:302, 366). `Percentage` answers that unreachable case with an absent score.
- Puzzles.NewPuzzle: drawing the target image and showing the input image (js/puzzles.js:95-101) are asynchronous canvas work and are not modelled.
- The DOM, the parameter editor `renderParamUI`, the modal, emoji text, draggable flags, image loading and resizing, the animation frame loop and `seeItOnNewImage` are user-interface code outside this model.

=== FILE: catalog.dfy ===
/**
 * The filter catalog: seven entries keyed by name, each with a default
 * configuration whose `type` is its own key and a kernel. Configurations are
 * JSON-like records: a `type` string and numeric fields by name.
 */
module Catalog {
  import opened Wrappers
  import opened Frames
  import Kernels

  datatype Config = Config(kind: string, fields: map<string, real>)

  /** The catalog entries, in declaration order. */
  datatype FilterKind = Invert | Grayscale | ColorFade | Pixelate | Blur | Swirl | ComicBook

  function Key(k: FilterKind): string {
    match k
    case Invert => "invert"
    case Grayscale => "grayscale"
    case ColorFade => "colorFade"
    case Pixelate => "pixelate"
    case Blur => "blur"
    case Swirl => "swirl"
    case ComicBook => "comicBook"
  }

  /** The catalog's keys in enumeration order, as `Object.keys` lists them. */
  const Keys: seq<string> := ["invert", "grayscale", "colorFade", "pixelate", "blur", "swirl", "comicBook"]

  /** Resolves a `type` string to its catalog entry; an unknown string has none. */
  function Lookup(key: string): (r: Option<FilterKind>)
    ensures r.Some? ==> Key(r.value) == key
    ensures r.None? ==> forall k: FilterKind :: Key(k) != key
  {
    if key == "invert" then Some(Invert)
    else if key == "grayscale" then Some(Grayscale)
    else if key == "colorFade" then Some(ColorFade)
    else if key == "pixelate" then Some(Pixelate)
    else if key == "blur" then Some(Blur)
    else if key == "swirl" then Some(Swirl)
    else if key == "comicBook" then Some(ComicBook)
    else None
  }

  /** Every entry is found under its own key, and the listed keys are exactly
      the catalog's keys, each listed once. */
  lemma CatalogKeys(k: FilterKind, key: string)
    ensures Lookup(Key(k)) == Some(k)
    ensures key in Keys <==> Lookup(key).Some?
    ensures |Keys| == 7 && forall i, j :: 0 <= i < j < |Keys| ==> Keys[i] != Keys[j]
  {
  }

  /** A field that must hold a count: absent, or a non-negative integer. The
      parameter sliders only ever store `parseInt` results there. */
  predicate CountField(c: Config, name: string) {
    name in c.fields ==> c.fields[name] >= 0.0 && c.fields[name].Floor as real == c.fields[name]
  }

  predicate WellFormed(c: Config) {
    CountField(c, "pixelSize") && CountField(c, "intensity")
  }

  /** The `defaultConfig` of each entry. */
  function DefaultConfig(k: FilterKind): (c: Config)
    ensures c.kind == Key(k)
    ensures WellFormed(c)
  {
    match k
    case Invert => Config("invert", map["invertStrength" := 1.0])
    case Grayscale => Config("grayscale", map[])
    case ColorFade => Config("colorFade", map["speed" := 0.05, "phase" := 0.0])
    case Pixelate => Config("pixelate", map["pixelSize" := 8.0])
    case Blur => Config("blur", map["intensity" := 1.0])
    case Swirl => Config("swirl", map["radius" := 100.0, "angle" := 1.0])
    case ComicBook => Config("comicBook", map[])
  }

  /** `config.invertStrength ?? 1`: only a missing field falls back. */
  function InvertStrength(c: Config): real {
    if "invertStrength" in c.fields then c.fields["invertStrength"] else 1.0
  }

  /** `config[name] || fallback`: a missing field and a zero both fall back. */
  function CountOr(c: Config, name: string, fallback: nat): (n: nat)
    requires CountField(c, name) && fallback >= 1
    ensures n >= 1
    ensures name in c.fields && c.fields[name] != 0.0 ==> n as real == c.fields[name]
    ensures name !in c.fields || c.fields[name] == 0.0 ==> n == fallback
  {
    if name in c.fields && c.fields[name] != 0.0 then c.fields[name].Floor else fallback
  }

  function PixelSize(c: Config): (p: nat)
    requires WellFormed(c)
    ensures p >= 1
  {
    CountOr(c, "pixelSize", 8)
  }

  function BlurRadius(c: Config): (r: nat)
    requires WellFormed(c)
    ensures r >= 1
  {
    CountOr(c, "intensity", 1)
  }

  /** Kernels the model does not define (swirl and colour fade) are supplied
      by the caller. Both keep a frame's shape and byte range; colour fade
      scales only the red, green and blue bytes, so it also keeps alpha,
      while swirl copies whole pixels, alpha included. */
  ghost predicate ExtKernels(ext: (Config, Frame) -> Frame) {
    forall c, f :: Valid(f) ==>
      && Valid(ext(c, f)) && SameShape(f, ext(c, f))
      && (c.kind == Key(ColorFade) ==> AlphaKept(f, ext(c, f)))
  }

  /** Runs entry `k`'s kernel on a frame with configuration `c`. */
  function Kernel(k: FilterKind, f: Frame, c: Config, ext: (Config, Frame) -> Frame): (g: Frame)
    requires Valid(f) && WellFormed(c) && ExtKernels(ext)
    ensures Valid(g) && SameShape(f, g)
    ensures k != Swirl && (k == ColorFade ==> c.kind == Key(ColorFade)) ==> AlphaKept(f, g)
    ensures k == Invert ==> g == Kernels.Invert(f, InvertStrength(c))
    ensures k == Grayscale ==> g == Kernels.Grayscale(f)
    ensures k == Pixelate ==> g == Kernels.Pixelate(f, PixelSize(c))
    ensures k == Blur ==> g == Kernels.Blur(f, BlurRadius(c))
    ensures k == ComicBook ==> g == Kernels.ComicBook(f)
    ensures k in {ColorFade, Swirl} ==> g == ext(c, f)
  {
    match k
    case Invert => Kernels.Invert(f, InvertStrength(c))
    case Grayscale => Kernels.Grayscale(f)
    case Pixelate => Kernels.Pixelate(f, PixelSize(c))
    case Blur => Kernels.Blur(f, BlurRadius(c))
    case ComicBook => Kernels.ComicBook(f)
    case ColorFade => ext(c, f)
    case Swirl => ext(c, f)
  }

  /** Invert's strength: absent means full inversion, an explicit 0 is kept
      and leaves the frame as it was. */
  lemma InvertStrengthDefault(f: Frame, ext: (Config, Frame) -> Frame)
    requires Valid(f) && ExtKernels(ext)
    ensures Kernel(Invert, f, Config("invert", map[]), ext) == Kernels.Invert(f, 1.0)
    ensures Kernel(Invert, f, Config("invert", map["invertStrength" := 0.0]), ext) == f
  {
    Kernels.InvertNoneIsIdentity(f);
  }

  /** Pixelate's tile size: absent or 0 falls back to 8, and a size of 1
      leaves the frame as it was. */
  lemma PixelSizeDefault(f: Frame, ext: (Config, Frame) -> Frame)
    requires Valid(f) && ExtKernels(ext)
    ensures Kernel(Pixelate, f, Config("pixelate", map[]), ext) == Kernels.Pixelate(f, 8)
    ensures Kernel(Pixelate, f, Config("pixelate", map["pixelSize" := 0.0]), ext) == Kernels.Pixelate(f, 8)
    ensures Kernel(Pixelate, f, Config("pixelate", map["pixelSize" := 1.0]), ext) == f
  {
    Kernels.PixelateOneIsIdentity(f);
  }

  /** Blur's radius: absent or 0 falls back to 1, and a frame of one flat
      colour is left as it was whatever the radius. */
  lemma BlurRadiusDefault(f: Frame, c: Config, ext: (Config, Frame) -> Frame)
    requires Valid(f) && ExtKernels(ext) && WellFormed(c)
    ensures Kernel(Blur, f, Config("blur", map[]), ext) == Kernels.Blur(f, 1)
    ensures Kernel(Blur, f, Config("blur", map["intensity" := 0.0]), ext) == Kernels.Blur(f, 1)
    ensures Flat(f) ==> Kernel(Blur, f, c, ext) == f
  {
    if Flat(f) {
      Kernels.BlurFlatIsFixed(f, BlurRadius(c));
    }
  }
}

=== FILE: clamp.dfy ===
/**
 * The store conversion of a `Uint8ClampedArray` (ToUint8Clamp, section 7.1.12
 * of ECMA-262): every number written into an RGBA buffer is clamped to
 * [0, 255] and then rounded to the nearest integer, ties to even.
 */
module Uint8Clamp {

  predicate IsByte(v: int) {
    0 <= v <= 255
  }

  /** ToUint8Clamp on an exact real. NaN never reaches this function: the one
      place the source can produce it (0/0) is handled by `Mean`. */
  function Clamp8(r: real): (b: int)
    ensures IsByte(b)
    ensures r <= 0.0 ==> b == 0
    ensures r >= 255.0 ==> b == 255
    ensures 0.0 < r < 255.0 && r == r.Floor as real + 0.5 ==> b % 2 == 0 && r - 0.5 <= b as real <= r + 0.5
  {
    if r <= 0.0 then 0
    else if r >= 255.0 then 255
    else
      var f := r.Floor;
      if f as real + 0.5 < r then f + 1
      else if r < f as real + 0.5 then f
      else if f % 2 == 0 then f
      else f + 1
  }

  /** Inside [0, 255] the store rounds to a nearest integer. */
  lemma Clamp8Rounds(r: real)
    requires 0.0 <= r <= 255.0
    ensures -0.5 <= Clamp8(r) as real - r <= 0.5
  {
  }

  /** Exact halves, such as the mean 31 / 2 of a two-pixel window, go to
      the even neighbour: 15.5 is stored as 16, 127.5 and 128.5 both as 128. */
  lemma Clamp8Ties()
    ensures Clamp8(31.0 / 2.0) == 16
    ensures Clamp8(127.5) == 128 && Clamp8(128.5) == 128
  {
    assert (31.0 / 2.0).Floor == 15;
    assert (127.5).Floor == 127 && (128.5).Floor == 128;
  }

  /** Storing a value that is already a byte leaves it unchanged. */
  lemma Clamp8OfByte(v: int)
    requires IsByte(v)
    ensures Clamp8(v as real) == v
  {
  }

  /** The store is monotone, so it keeps every ordering between values. */
  lemma Clamp8Monotone(r1: real, r2: real)
    requires r1 <= r2
    ensures Clamp8(r1) <= Clamp8(r2)
  {
  }

  /** A real between two bytes is stored as a byte between them. */
  lemma Clamp8Between(r: real, lo: int, hi: int)
    requires IsByte(lo) && IsByte(hi)
    requires lo as real <= r <= hi as real
    ensures lo <= Clamp8(r) <= hi
  {
    Clamp8Monotone(lo as real, r);
    Clamp8Monotone(r, hi as real);
    Clamp8OfByte(lo);
    Clamp8OfByte(hi);
  }

  /** The mean `sum / count` stored into a byte. JavaScript's `0 / 0` is NaN,
      which ToUint8Clamp stores as 0; a zero count always has a zero sum, so
      a non-positive count stores 0. */
  function Mean(sum: int, count: int): (b: int)
    ensures IsByte(b)
    ensures count <= 0 ==> b == 0
    ensures count > 0 ==> b == Clamp8(sum as real / count as real)
  {
    if count <= 0 then 0 else Clamp8(sum as real / count as real)
  }
}

=== FILE: frame.dfy ===
/**
 * The `ImageData` a filter works on: a width, a height and a flat RGBA byte
 * buffer in which channel `c` of pixel (x, y) sits at `(y * width + x) * 4 + c`.
 */
module Frames {
  import opened Uint8Clamp

  datatype Frame = Frame(width: nat, height: nat, data: seq<int>)

  /** The buffer has one RGBA quadruple per pixel and holds bytes only. */
  predicate Valid(f: Frame) {
    && |f.data| == f.width * f.height * 4
    && forall k :: 0 <= k < |f.data| ==> IsByte(f.data[k])
  }

  function Offset(w: nat, x: nat, y: nat, c: nat): nat {
    (y * w + x) * 4 + c
  }

  /** Column, row and channel of byte `k` in a buffer of width `w`. */
  function ColumnOf(w: nat, k: nat): nat
    requires w > 0
  {
    (k / 4) % w
  }

  function RowOf(w: nat, k: nat): nat
    requires w > 0
  {
    (k / 4) / w
  }

  function ChannelOf(k: nat): nat {
    k % 4
  }

  predicate InBounds(f: Frame, x: int, y: int) {
    0 <= x < f.width && 0 <= y < f.height
  }

  lemma MulAtLeast(a: int, d: int)
    requires a >= 1 && d > 0
    ensures a * d >= d
  {
  }

  lemma DivModUnique(n: int, d: int, q: int, r: int)
    requires d > 0 && 0 <= r < d && n == q * d + r
    ensures n / d == q && n % d == r
  {
    var q', r' := n / d, n % d;
    assert q' * d + r' == q * d + r;
    if q' > q {
      assert (q' - q) * d == q' * d - q * d;
      MulAtLeast(q' - q, d);
    } else if q' < q {
      assert (q - q') * d == q * d - q' * d;
      MulAtLeast(q - q', d);
    }
  }

  /** An in-bounds pixel's bytes lie inside the buffer. */
  lemma OffsetInRange(f: Frame, x: nat, y: nat, c: nat)
    requires Valid(f) && x < f.width && y < f.height && c < 4
    ensures Offset(f.width, x, y, c) < |f.data|
  {
    var w, h := f.width, f.height;
    assert y * w + x < (y + 1) * w;
    assert (y + 1) * w <= h * w;
    assert (y * w + x) * 4 + c < (h * w) * 4;
  }

  /** `Offset` and (`ColumnOf`, `RowOf`, `ChannelOf`) are inverse to each other. */
  lemma OffsetDecompose(w: nat, x: nat, y: nat, c: nat)
    requires x < w && c < 4
    ensures ColumnOf(w, Offset(w, x, y, c)) == x
    ensures RowOf(w, Offset(w, x, y, c)) == y
    ensures ChannelOf(Offset(w, x, y, c)) == c
  {
    var k := Offset(w, x, y, c);
    DivModUnique(k, 4, y * w + x, c);
    DivModUnique(y * w + x, w, y, x);
  }

  lemma OffsetCompose(f: Frame, k: nat)
    requires Valid(f) && f.width > 0 && k < |f.data|
    ensures RowOf(f.width, k) < f.height
    ensures k == Offset(f.width, ColumnOf(f.width, k), RowOf(f.width, k), ChannelOf(k))
  {
    var w := f.width;
    var p := k / 4;
    assert k == p * 4 + k % 4;
    assert p == (p / w) * w + p % w;
  }

  lemma NonEmptyHasPixels(f: Frame)
    requires Valid(f) && |f.data| > 0
    ensures f.width > 0 && f.height > 0
  {
  }

  predicate SameShape(f: Frame, g: Frame) {
    f.width == g.width && f.height == g.height && |f.data| == |g.data|
  }

  /** The alpha byte of every pixel is the same in both frames. */
  predicate AlphaKept(f: Frame, g: Frame)
    requires |f.data| == |g.data|
  {
    forall k :: 0 <= k < |f.data| && k % 4 == 3 ==> g.data[k] == f.data[k]
  }

  /** Channel `c` of pixel (x, y); positions outside the frame read as 0 and
      are never counted. */
  function Sample(f: Frame, c: nat, x: int, y: int): int
    requires Valid(f) && c < 4
  {
    if InBounds(f, x, y) then
      OffsetInRange(f, x, y, c);
      f.data[Offset(f.width, x, y, c)]
    else 0
  }

  /** Sum of channel `c` over the in-bounds pixels of row `y`, columns [x0, x1). */
  function RowSum(f: Frame, c: nat, y: int, x0: int, x1: int): int
    requires Valid(f) && c < 4
    decreases x1 - x0
  {
    if x1 <= x0 then 0 else RowSum(f, c, y, x0, x1 - 1) + Sample(f, c, x1 - 1, y)
  }

  /** Number of in-bounds pixels of row `y`, columns [x0, x1). */
  function RowCount(f: Frame, y: int, x0: int, x1: int): nat
    decreases x1 - x0
  {
    if x1 <= x0 then 0
    else RowCount(f, y, x0, x1 - 1) + (if InBounds(f, x1 - 1, y) then 1 else 0)
  }

  /** Sum of channel `c` over the in-bounds pixels of the box [x0, x1) x [y0, y1). */
  function BoxSum(f: Frame, c: nat, x0: int, x1: int, y0: int, y1: int): int
    requires Valid(f) && c < 4
    decreases y1 - y0
  {
    if y1 <= y0 then 0 else BoxSum(f, c, x0, x1, y0, y1 - 1) + RowSum(f, c, y1 - 1, x0, x1)
  }

  /** Number of in-bounds pixels of the box [x0, x1) x [y0, y1). */
  function BoxCount(f: Frame, x0: int, x1: int, y0: int, y1: int): nat
    decreases y1 - y0
  {
    if y1 <= y0 then 0 else BoxCount(f, x0, x1, y0, y1 - 1) + RowCount(f, y1 - 1, x0, x1)
  }

  /** Length of the intersection of [a, b) and [lo, hi). */
  function Overlap(a: int, b: int, lo: int, hi: int): nat {
    var l := if a < lo then lo else a;
    var u := if b < hi then b else hi;
    if u <= l then 0 else u - l
  }

  lemma MulDistributes(a: int, b: int, e: int)
    ensures a * (b + e) == a * b + a * e
  {
  }

  lemma OverlapStep(a: int, b: int, lo: int, hi: int)
    requires a < b
    ensures Overlap(a, b, lo, hi) == Overlap(a, b - 1, lo, hi) + (if lo <= b - 1 < hi then 1 else 0)
  {
  }

  lemma {:induction false} RowCountIsOverlap(f: Frame, y: int, x0: int, x1: int)
    ensures RowCount(f, y, x0, x1) == if 0 <= y < f.height then Overlap(x0, x1, 0, f.width) else 0
    decreases x1 - x0
  {
    if x1 > x0 {
      RowCountIsOverlap(f, y, x0, x1 - 1);
    }
  }

  /** The number of pixels counted in a box is the area of its clipped rectangle. */
  lemma {:induction false} BoxCountIsArea(f: Frame, x0: int, x1: int, y0: int, y1: int)
    ensures BoxCount(f, x0, x1, y0, y1) == Overlap(x0, x1, 0, f.width) * Overlap(y0, y1, 0, f.height)
    decreases y1 - y0
  {
    if y1 > y0 {
      var ow := Overlap(x0, x1, 0, f.width);
      var e := if 0 <= y1 - 1 < f.height then 1 else 0;
      BoxCountIsArea(f, x0, x1, y0, y1 - 1);
      RowCountIsOverlap(f, y1 - 1, x0, x1);
      OverlapStep(y0, y1, 0, f.height);
      MulDistributes(ow, Overlap(y0, y1 - 1, 0, f.height), e);
      assert ow * e == RowCount(f, y1 - 1, x0, x1);
    }
  }

  /** A box that contains an in-bounds pixel counts at least one sample, so
      the mean taken over it never divides by zero. */
  lemma BoxCountPositive(f: Frame, x0: int, x1: int, y0: int, y1: int, x: int, y: int)
    requires InBounds(f, x, y) && x0 <= x < x1 && y0 <= y < y1
    ensures BoxCount(f, x0, x1, y0, y1) >= 1
  {
    BoxCountIsArea(f, x0, x1, y0, y1);
    MulAtLeast(Overlap(x0, x1, 0, f.width), Overlap(y0, y1, 0, f.height));
  }

  /** Every in-bounds sample of channel `c` in the box lies in [lo, hi]. */
  ghost predicate BoxWithin(f: Frame, c: nat, x0: int, x1: int, y0: int, y1: int, lo: int, hi: int)
    requires Valid(f) && c < 4
  {
    forall x, y :: x0 <= x < x1 && y0 <= y < y1 && InBounds(f, x, y) ==> lo <= Sample(f, c, x, y) <= hi
  }

  lemma {:induction false} RowSumBounds(f: Frame, c: nat, y: int, x0: int, x1: int, lo: int, hi: int)
    requires Valid(f) && c < 4
    requires forall x :: x0 <= x < x1 && InBounds(f, x, y) ==> lo <= Sample(f, c, x, y) <= hi
    ensures lo * RowCount(f, y, x0, x1) <= RowSum(f, c, y, x0, x1) <= hi * RowCount(f, y, x0, x1)
    decreases x1 - x0
  {
    if x1 > x0 {
      var n := RowCount(f, y, x0, x1 - 1);
      RowSumBounds(f, c, y, x0, x1 - 1, lo, hi);
      if InBounds(f, x1 - 1, y) {
        MulDistributes(lo, n, 1);
        MulDistributes(hi, n, 1);
      }
    }
  }

  /** A sum over a box lies between `lo` and `hi` times its count when every
      sample does. */
  lemma {:induction false} BoxSumBounds(f: Frame, c: nat, x0: int, x1: int, y0: int, y1: int, lo: int, hi: int)
    requires Valid(f) && c < 4
    requires BoxWithin(f, c, x0, x1, y0, y1, lo, hi)
    ensures lo * BoxCount(f, x0, x1, y0, y1) <= BoxSum(f, c, x0, x1, y0, y1) <= hi * BoxCount(f, x0, x1, y0, y1)
    decreases y1 - y0
  {
    if y1 > y0 {
      var n, m := BoxCount(f, x0, x1, y0, y1 - 1), RowCount(f, y1 - 1, x0, x1);
      BoxSumBounds(f, c, x0, x1, y0, y1 - 1, lo, hi);
      RowSumBounds(f, c, y1 - 1, x0, x1, lo, hi);
      MulDistributes(lo, n, m);
      MulDistributes(hi, n, m);
    }
  }

  lemma DivAtLeast(s: real, n: real, a: real)
    requires n > 0.0 && a * n <= s
    ensures a <= s / n
  {
    assert (s / n) * n == s;
  }

  lemma DivAtMost(s: real, n: real, a: real)
    requires n > 0.0 && s <= a * n
    ensures s / n <= a
  {
    assert (s / n) * n == s;
  }

  /** A mean of samples in [lo, hi] is stored as a byte in [lo, hi]. */
  lemma MeanWithin(sum: int, n: int, lo: int, hi: int)
    requires n >= 1 && IsByte(lo) && IsByte(hi)
    requires lo * n <= sum <= hi * n
    ensures lo <= Mean(sum, n) <= hi
  {
    var s, m := sum as real, n as real;
    CastMul(lo, n);
    CastMul(hi, n);
    DivAtLeast(s, m, lo as real);
    DivAtMost(s, m, hi as real);
    Clamp8Between(s / m, lo, hi);
  }

  lemma CastMul(a: int, b: int)
    ensures (a * b) as real == a as real * b as real
  {
  }

  /** The stored mean of a box whose samples lie in [lo, hi] lies in [lo, hi]. */
  lemma BoxMeanWithin(f: Frame, c: nat, x0: int, x1: int, y0: int, y1: int, lo: int, hi: int)
    requires Valid(f) && c < 4 && IsByte(lo) && IsByte(hi)
    requires BoxCount(f, x0, x1, y0, y1) >= 1
    requires BoxWithin(f, c, x0, x1, y0, y1, lo, hi)
    ensures lo <= Mean(BoxSum(f, c, x0, x1, y0, y1), BoxCount(f, x0, x1, y0, y1)) <= hi
  {
    BoxSumBounds(f, c, x0, x1, y0, y1, lo, hi);
    MeanWithin(BoxSum(f, c, x0, x1, y0, y1), BoxCount(f, x0, x1, y0, y1), lo, hi);
  }

  /** The four bytes of the pixel that holds byte `k` lie inside the buffer. */
  lemma PixelInRange(f: Frame, k: int)
    requires Valid(f) && 0 <= k < |f.data|
    ensures k - k % 4 + 3 < |f.data|
  {
    var n := f.width * f.height;
    assert |f.data| == n * 4;
    assert k - k % 4 == (k / 4) * 4;
    assert k / 4 < n;
  }

  /** Every pixel has the same colour: each byte equals the byte of the same
      channel in the first pixel. */
  predicate Flat(f: Frame) {
    forall k :: 0 <= k < |f.data| ==> f.data[k] == f.data[k % 4]
  }

  /** In a flat frame, every in-bounds sample of channel `c` is that channel's
      value in the first pixel. */
  lemma FlatSample(f: Frame, c: nat, x: int, y: int)
    requires Valid(f) && Flat(f) && c < 4 && InBounds(f, x, y)
    ensures Sample(f, c, x, y) == f.data[c]
  {
    OffsetInRange(f, x, y, c);
    OffsetDecompose(f.width, x, y, c);
  }
}

=== FILE: kernel_loops.dfy ===
/**
 * The kernels' loops as the source writes them, proved to compute the
 * functional kernels: the stride-4 passes of invert, grayscale and comic
 * book, the window accumulation shared by pixelate and blur, blur's pass
 * over every pixel and pixelate's pass over tiles.
 */
module KernelLoops {
  import opened Uint8Clamp
  import opened Frames
  import opened Kernels

  /** The first `n` bytes of `data` hold `result` and the rest still hold
      `orig`. */
  predicate WrittenBefore(orig: seq<int>, result: seq<int>, data: seq<int>, n: int) {
    |data| == |orig| == |result| &&
    forall k :: 0 <= k < |data| ==> data[k] == if k < n then result[k] else orig[k]
  }

  /** Writing the three colour bytes of the pixel at byte `i` extends the
      written prefix by one pixel, since no kernel changes the alpha byte. */
  lemma PixelWritten(orig: seq<int>, result: seq<int>, data: seq<int>, i: int)
    requires WrittenBefore(orig, result, data, i)
    requires 0 <= i && i + 3 < |data| && result[i + 3] == orig[i + 3]
    ensures WrittenBefore(orig, result, data[i := result[i]][i + 1 := result[i + 1]][i + 2 := result[i + 2]], i + 4)
  {
  }

  // ------------------------------------------------------ stride-4 passes

  /** The byte offsets of one pixel's channels. */
  lemma PixelBytes(i: int)
    requires i % 4 == 0
    ensures (i + 1) % 4 == 1 && (i + 2) % 4 == 2 && (i + 3) % 4 == 3
  {
  }

  /** A kernel that keeps alpha keeps the alpha byte of the pixel at `i`. */
  lemma AlphaAt(f: Frame, g: Frame, i: int)
    requires |f.data| == |g.data| && AlphaKept(f, g)
    requires 0 <= i && i + 3 < |f.data| && i % 4 == 0
    ensures g.data[i + 3] == f.data[i + 3]
  {
    assert (i + 3) % 4 == 3;
  }

  /** Once the pass has covered every byte, the data is the result. */
  lemma AllWritten(orig: seq<int>, result: seq<int>, data: seq<int>, n: int)
    requires WrittenBefore(orig, result, data, n) && n >= |data|
    ensures data == result
  {
  }

  /** The bytes of the pixel at byte `i` after invert. */
  lemma InvertPixel(f: Frame, s: real, i: int)
    requires Valid(f) && 0 <= i < |f.data| && i % 4 == 0
    ensures i + 3 < |f.data|
    ensures Invert(f, s).data[i] == InvertByte(f.data[i], s)
    ensures Invert(f, s).data[i + 1] == InvertByte(f.data[i + 1], s)
    ensures Invert(f, s).data[i + 2] == InvertByte(f.data[i + 2], s)
    ensures Invert(f, s).data[i + 3] == f.data[i + 3]
  {
    PixelInRange(f, i);
    PixelBytes(i);
    AlphaAt(f, Invert(f, s), i);
  }

  /** The bytes of the pixel at byte `i` after comic book. */
  lemma ComicPixel(f: Frame, i: int)
    requires Valid(f) && 0 <= i < |f.data| && i % 4 == 0
    ensures i + 3 < |f.data|
    ensures ComicBook(f).data[i] == Quantize(f.data[i])
    ensures ComicBook(f).data[i + 1] == Quantize(f.data[i + 1])
    ensures ComicBook(f).data[i + 2] == Quantize(f.data[i + 2])
    ensures ComicBook(f).data[i + 3] == f.data[i + 3]
  {
    PixelInRange(f, i);
    PixelBytes(i);
    AlphaAt(f, ComicBook(f), i);
  }

  /** The luma stored for the pixel at byte `i` is computed from its three
      colour bytes. */
  lemma GrayByteAtPixel(f: Frame, i: int)
    requires Valid(f) && 0 <= i < |f.data| && i % 4 == 0
    ensures i + 3 < |f.data|
    ensures GrayByte(f, i) == Clamp8(Luma(f.data[i], f.data[i + 1], f.data[i + 2]))
  {
    PixelInRange(f, i);
  }

  /** The bytes of the pixel at byte `i` after grayscale. */
  lemma GrayPixel(f: Frame, i: int)
    requires Valid(f) && 0 <= i < |f.data| && i % 4 == 0
    ensures i + 3 < |f.data|
    ensures Grayscale(f).data[i] == GrayByte(f, i)
    ensures Grayscale(f).data[i + 1] == GrayByte(f, i)
    ensures Grayscale(f).data[i + 2] == GrayByte(f, i)
  {
    PixelInRange(f, i);
    GrayscaleIsGray(f, i);
  }

  /** The invert pass: for each pixel, each colour byte is replaced by the
      stored blend of its complement and itself. */
  method InvertLoop(f: Frame, s: real) returns (g: Frame)
    requires Valid(f)
    ensures g == Invert(f, s)
  {
    var target := Invert(f, s).data;
    var data := f.data;
    var i := 0;
    while i < |data|
      invariant 0 <= i <= |data| && i % 4 == 0
      invariant WrittenBefore(f.data, target, data, i)
    {
      InvertPixel(f, s, i);
      PixelWritten(f.data, target, data, i);
      data := data[i := InvertByte(data[i], s)][i + 1 := InvertByte(data[i + 1], s)][i + 2 := InvertByte(data[i + 2], s)];
      i := i + 4;
    }
    AllWritten(f.data, target, data, i);
    g := Frame(f.width, f.height, data);
  }

  /** The grayscale pass: each pixel's luma is computed from its three
      colour bytes, then stored into all three. */
  method GrayscaleLoop(f: Frame) returns (g: Frame)
    requires Valid(f)
    ensures g == Grayscale(f)
  {
    var target := Grayscale(f).data;
    var data := f.data;
    var i := 0;
    while i < |data|
      invariant 0 <= i <= |data| && i % 4 == 0
      invariant WrittenBefore(f.data, target, data, i)
    {
      GrayPixel(f, i);
      GrayByteAtPixel(f, i);
      AlphaAt(f, Grayscale(f), i);
      PixelWritten(f.data, target, data, i);
      var avg := Luma(data[i], data[i + 1], data[i + 2]);
      data := data[i := Clamp8(avg)][i + 1 := Clamp8(avg)][i + 2 := Clamp8(avg)];
      i := i + 4;
    }
    AllWritten(f.data, target, data, i);
    g := Frame(f.width, f.height, data);
  }

  /** The comic book pass: each colour byte is quantised to three levels. */
  method ComicBookLoop(f: Frame) returns (g: Frame)
    requires Valid(f)
    ensures g == ComicBook(f)
  {
    var target := ComicBook(f).data;
    var data := f.data;
    var i := 0;
    while i < |data|
      invariant 0 <= i <= |data| && i % 4 == 0
      invariant WrittenBefore(f.data, target, data, i)
    {
      ComicPixel(f, i);
      PixelWritten(f.data, target, data, i);
      data := data[i := Quantize(data[i])][i + 1 := Quantize(data[i + 1])][i + 2 := Quantize(data[i + 2])];
      i := i + 4;
    }
    AllWritten(f.data, target, data, i);
    g := Frame(f.width, f.height, data);
  }

  // ------------------------------------------------- windows: blur, pixelate

  /** Sums R, G and B and counts the in-bounds pixels (x + kx, y + ky) for
      offsets kx, ky in [lo, hi], row by row. */
  method WindowSums(f: Frame, x: int, y: int, lo: int, hi: int) returns (sumR: int, sumG: int, sumB: int, count: nat)
    requires Valid(f) && lo <= hi + 1
    ensures sumR == BoxSum(f, 0, x + lo, x + hi + 1, y + lo, y + hi + 1)
    ensures sumG == BoxSum(f, 1, x + lo, x + hi + 1, y + lo, y + hi + 1)
    ensures sumB == BoxSum(f, 2, x + lo, x + hi + 1, y + lo, y + hi + 1)
    ensures count == BoxCount(f, x + lo, x + hi + 1, y + lo, y + hi + 1)
  {
    var x0, x1, y0 := x + lo, x + hi + 1, y + lo;
    sumR, sumG, sumB, count := 0, 0, 0, 0;
    var ky := lo;
    while ky <= hi
      invariant lo <= ky <= hi + 1
      invariant sumR == BoxSum(f, 0, x0, x1, y0, y + ky)
      invariant sumG == BoxSum(f, 1, x0, x1, y0, y + ky)
      invariant sumB == BoxSum(f, 2, x0, x1, y0, y + ky)
      invariant count == BoxCount(f, x0, x1, y0, y + ky)
    {
      var ny := y + ky;
      var kx := lo;
      while kx <= hi
        invariant lo <= kx <= hi + 1
        invariant sumR == BoxSum(f, 0, x0, x1, y0, ny) + RowSum(f, 0, ny, x0, x + kx)
        invariant sumG == BoxSum(f, 1, x0, x1, y0, ny) + RowSum(f, 1, ny, x0, x + kx)
        invariant sumB == BoxSum(f, 2, x0, x1, y0, ny) + RowSum(f, 2, ny, x0, x + kx)
        invariant count == BoxCount(f, x0, x1, y0, ny) + RowCount(f, ny, x0, x + kx)
      {
        var nx := x + kx;
        if 0 <= nx < f.width && 0 <= ny < f.height {
          OffsetInRange(f, nx, ny, 2);
          var idx := Offset(f.width, nx, ny, 0);
          sumR := sumR + f.data[idx + 0];
          sumG := sumG + f.data[idx + 1];
          sumB := sumB + f.data[idx + 2];
          count := count + 1;
        }
        kx := kx + 1;
      }
      ky := ky + 1;
    }
  }

  /** Channel `c` of pixel (x, y) after blur. */
  lemma BlurByteAt(f: Frame, r: nat, x: nat, y: nat, c: nat)
    requires Valid(f) && InBounds(f, x, y) && c < 4
    ensures Offset(f.width, x, y, c) < |f.data|
    ensures BlurByte(f, r, Offset(f.width, x, y, c)) ==
      if c == 3 then f.data[Offset(f.width, x, y, c)]
      else Mean(BoxSum(f, c, x - r, x + r + 1, y - r, y + r + 1), BoxCount(f, x - r, x + r + 1, y - r, y + r + 1))
  {
    OffsetInRange(f, x, y, c);
    OffsetDecompose(f.width, x, y, c);
  }

  /** The bytes of pixel (x, y) after blur are the stored window means of
      its colour channels and its own alpha. */
  lemma BlurBytes(f: Frame, r: nat, x: nat, y: nat, sumR: int, sumG: int, sumB: int, count: nat)
    requires Valid(f) && InBounds(f, x, y)
    requires sumR == BoxSum(f, 0, x - r, x + r + 1, y - r, y + r + 1)
    requires sumG == BoxSum(f, 1, x - r, x + r + 1, y - r, y + r + 1)
    requires sumB == BoxSum(f, 2, x - r, x + r + 1, y - r, y + r + 1)
    requires count == BoxCount(f, x - r, x + r + 1, y - r, y + r + 1)
    ensures Offset(f.width, x, y, 0) + 3 < |f.data|
    ensures BlurByte(f, r, Offset(f.width, x, y, 0)) == Mean(sumR, count)
    ensures BlurByte(f, r, Offset(f.width, x, y, 0) + 1) == Mean(sumG, count)
    ensures BlurByte(f, r, Offset(f.width, x, y, 0) + 2) == Mean(sumB, count)
    ensures BlurByte(f, r, Offset(f.width, x, y, 0) + 3) == f.data[Offset(f.width, x, y, 0) + 3]
  {
    BlurByteAt(f, r, x, y, 0);
    BlurByteAt(f, r, x, y, 1);
    BlurByteAt(f, r, x, y, 2);
    BlurByteAt(f, r, x, y, 3);
  }

  /** The same bytes, read from blur's output frame. */
  lemma BlurPixel(f: Frame, r: nat, x: nat, y: nat, sumR: int, sumG: int, sumB: int, count: nat)
    requires Valid(f) && InBounds(f, x, y)
    requires sumR == BoxSum(f, 0, x - r, x + r + 1, y - r, y + r + 1)
    requires sumG == BoxSum(f, 1, x - r, x + r + 1, y - r, y + r + 1)
    requires sumB == BoxSum(f, 2, x - r, x + r + 1, y - r, y + r + 1)
    requires count == BoxCount(f, x - r, x + r + 1, y - r, y + r + 1)
    ensures Offset(f.width, x, y, 0) + 3 < |f.data|
    ensures var i, res := Offset(f.width, x, y, 0), BlurData(f, r);
      res[i] == Mean(sumR, count) && res[i + 1] == Mean(sumG, count) &&
      res[i + 2] == Mean(sumB, count) && res[i + 3] == f.data[i + 3]
  {
    BlurBytes(f, r, x, y, sumR, sumG, sumB, count);
    var i := Offset(f.width, x, y, 0);
    BlurAt(f, r, i);
    BlurAt(f, r, i + 1);
    BlurAt(f, r, i + 2);
    BlurAt(f, r, i + 3);
  }

  lemma BlurAt(f: Frame, r: nat, k: int)
    requires Valid(f) && 0 <= k < |f.data|
    ensures BlurData(f, r)[k] == BlurByte(f, r, k)
  {
  }

  lemma NextRow(w: nat, y: nat)
    ensures Offset(w, w, y, 0) == Offset(w, 0, y + 1, 0)
  {
    assert y * w + w == (y + 1) * w;
  }

  lemma LastRow(f: Frame)
    requires Valid(f)
    ensures Offset(f.width, 0, f.height, 0) == |f.data|
  {
    assert f.height * f.width * 4 == f.width * f.height * 4;
  }

  /** Writing pixel (x, y)'s three means extends the blurred prefix by one
      pixel. */
  lemma BlurStep(f: Frame, r: nat, data: seq<int>, x: nat, y: nat, sumR: int, sumG: int, sumB: int, count: nat)
    requires Valid(f) && InBounds(f, x, y)
    requires WrittenBefore(f.data, BlurData(f, r), data, Offset(f.width, x, y, 0))
    requires sumR == BoxSum(f, 0, x - r, x + r + 1, y - r, y + r + 1)
    requires sumG == BoxSum(f, 1, x - r, x + r + 1, y - r, y + r + 1)
    requires sumB == BoxSum(f, 2, x - r, x + r + 1, y - r, y + r + 1)
    requires count == BoxCount(f, x - r, x + r + 1, y - r, y + r + 1)
    ensures Offset(f.width, x, y, 2) < |data|
    ensures WrittenBefore(f.data, BlurData(f, r),
      data[Offset(f.width, x, y, 0) := Mean(sumR, count)]
          [Offset(f.width, x, y, 1) := Mean(sumG, count)]
          [Offset(f.width, x, y, 2) := Mean(sumB, count)],
      Offset(f.width, x + 1, y, 0))
  {
    BlurPixel(f, r, x, y, sumR, sumG, sumB, count);
    PixelWritten(f.data, BlurData(f, r), data, Offset(f.width, x, y, 0));
  }

  /** The blur pass: every pixel, row by row, gets its window's mean colour
      read from the copy taken before the pass; alpha bytes are not written. */
  method BlurLoop(f: Frame, r: nat) returns (g: Frame)
    requires Valid(f)
    ensures g == Blur(f, r)
  {
    var w, h := f.width, f.height;
    var data := f.data;
    var y := 0;
    while y < h
      invariant 0 <= y <= h
      invariant WrittenBefore(f.data, BlurData(f, r), data, Offset(w, 0, y, 0))
    {
      var x := 0;
      while x < w
        invariant 0 <= x <= w
        invariant WrittenBefore(f.data, BlurData(f, r), data, Offset(w, x, y, 0))
      {
        var sumR, sumG, sumB, count := WindowSums(f, x, y, -(r as int), r);
        BlurStep(f, r, data, x, y, sumR, sumG, sumB, count);
        var idx := Offset(w, x, y, 0);
        data := data[idx + 0 := Mean(sumR, count)][idx + 1 := Mean(sumG, count)][idx + 2 := Mean(sumB, count)];
        x := x + 1;
      }
      NextRow(w, y);
      y := y + 1;
    }
    LastRow(f);
    AllWritten(f.data, BlurData(f, r), data, Offset(w, 0, h, 0));
    g := Frame(w, h, data);
    assert g == Blur(f, r);
  }

  // -------------------------------------------------------------- pixelate

  /** Whether the pixelate pass has written pixel (px, py) once it has
      finished every tile row above `ty`, every tile left of `tx` in row
      `ty`, and, in the tile at (tx, ty), the first `fy` pixel rows and the
      first `fx` pixels of the next. */
  predicate TileDone(px: int, py: int, p: nat, tx: int, ty: int, fy: int, fx: int) {
    py < ty
    || (ty <= py < ty + p && px < tx)
    || (tx <= px < tx + p && (ty <= py < ty + fy || (py == ty + fy && px < tx + fx)))
  }

  /** One more step of the fill marks exactly one more pixel as written. */
  lemma TileDoneNext(px: int, py: int, p: nat, tx: int, ty: int, fy: int, fx: int)
    requires 0 <= fx < p && 0 <= fy
    ensures TileDone(px, py, p, tx, ty, fy, fx + 1)
        <==> TileDone(px, py, p, tx, ty, fy, fx) || (px == tx + fx && py == ty + fy)
    ensures !TileDone(tx + fx, ty + fy, p, tx, ty, fy, fx)
  {
  }

  /** Written pixels hold pixelate's result; the others still hold the
      input's bytes. */
  ghost predicate PixelatedSoFar(f: Frame, p: nat, data: seq<int>, tx: int, ty: int, fy: int, fx: int)
    requires Valid(f) && p >= 1
  {
    |data| == |f.data| &&
    (f.width == 0 ||
     forall k :: 0 <= k < |data| ==>
       data[k] == if TileDone(ColumnOf(f.width, k), RowOf(f.width, k), p, tx, ty, fy, fx)
                  then PixelateByte(f, p, k) else f.data[k])
  }

  /** Progress is a statement about the frame's pixels only: two progress
      points that agree on every pixel of the frame describe the same data. */
  lemma PixelatedSame(f: Frame, p: nat, data: seq<int>, tx: int, ty: int, fy: int, fx: int,
                      tx': int, ty': int, fy': int, fx': int)
    requires Valid(f) && p >= 1 && PixelatedSoFar(f, p, data, tx, ty, fy, fx)
    requires forall px, py :: 0 <= px < f.width && 0 <= py < f.height ==>
      (TileDone(px, py, p, tx, ty, fy, fx) <==> TileDone(px, py, p, tx', ty', fy', fx'))
    ensures PixelatedSoFar(f, p, data, tx', ty', fy', fx')
  {
    if f.width > 0 {
      forall k | 0 <= k < |data|
        ensures TileDone(ColumnOf(f.width, k), RowOf(f.width, k), p, tx, ty, fy, fx)
            <==> TileDone(ColumnOf(f.width, k), RowOf(f.width, k), p, tx', ty', fy', fx')
      {
        OffsetCompose(f, k);
      }
    }
  }

  /** Byte `k` belongs to pixel (nx, ny) exactly when it is one of that
      pixel's four bytes. */
  lemma PixelOfByte(f: Frame, k: int, nx: nat, ny: nat)
    requires Valid(f) && InBounds(f, nx, ny) && 0 <= k < |f.data|
    ensures (ColumnOf(f.width, k) == nx && RowOf(f.width, k) == ny)
        <==> Offset(f.width, nx, ny, 0) <= k < Offset(f.width, nx, ny, 0) + 4
  {
    OffsetCompose(f, k);
    var i := Offset(f.width, nx, ny, 0);
    if i <= k < i + 4 {
      OffsetDecompose(f.width, nx, ny, k - i);
    }
  }

  /** Channel `c` of pixel (nx, ny), which lies in the tile at (x, y), after
      pixelate. */
  lemma PixelateByteAt(f: Frame, p: nat, x: nat, y: nat, nx: nat, ny: nat, c: nat)
    requires Valid(f) && p >= 1 && x % p == 0 && y % p == 0
    requires x <= nx < x + p && y <= ny < y + p && InBounds(f, nx, ny) && c < 4
    ensures Offset(f.width, nx, ny, c) < |f.data|
    ensures PixelateByte(f, p, Offset(f.width, nx, ny, c)) ==
      if c == 3 then f.data[Offset(f.width, nx, ny, c)]
      else Mean(BoxSum(f, c, x, x + p, y, y + p), BoxCount(f, x, x + p, y, y + p))
  {
    OffsetInRange(f, nx, ny, c);
    OffsetDecompose(f.width, nx, ny, c);
    TileContains(nx, p, x);
    TileContains(ny, p, y);
  }

  /** The colour bytes of the pixel at byte `i` set to (r, g, b). */
  function StoreColour(data: seq<int>, i: nat, r: int, g: int, b: int): (d: seq<int>)
    requires i + 2 < |data|
    ensures |d| == |data|
    ensures d[i] == r && d[i + 1] == g && d[i + 2] == b
    ensures forall k :: 0 <= k < |d| && (k < i || i + 2 < k) ==> d[k] == data[k]
  {
    data[i := r][i + 1 := g][i + 2 := b]
  }

  /** Byte `k` after filling the in-frame pixel (x + xx, y + yy) of the
      tile at (x, y) with the tile's mean colour: written bytes hold
      pixelate's result, the others the input's. */
  lemma FillByte(f: Frame, p: nat, data: seq<int>, x: nat, y: nat, yy: nat, xx: nat,
                 sumR: int, sumG: int, sumB: int, count: nat, k: int)
    requires Valid(f) && p >= 1 && x % p == 0 && y % p == 0 && yy < p && xx < p
    requires InBounds(f, x + xx, y + yy) && |data| == |f.data| && 0 <= k < |data|
    requires data[k] == if TileDone(ColumnOf(f.width, k), RowOf(f.width, k), p, x, y, yy, xx)
                        then PixelateByte(f, p, k) else f.data[k]
    requires sumR == BoxSum(f, 0, x, x + p, y, y + p)
    requires sumG == BoxSum(f, 1, x, x + p, y, y + p)
    requires sumB == BoxSum(f, 2, x, x + p, y, y + p)
    requires count == BoxCount(f, x, x + p, y, y + p)
    ensures Offset(f.width, x + xx, y + yy, 0) + 2 < |data|
    ensures StoreColour(data, Offset(f.width, x + xx, y + yy, 0), Mean(sumR, count), Mean(sumG, count), Mean(sumB, count))[k]
         == if TileDone(ColumnOf(f.width, k), RowOf(f.width, k), p, x, y, yy, xx + 1)
            then PixelateByte(f, p, k) else f.data[k]
  {
    var nx, ny := x + xx, y + yy;
    var i := Offset(f.width, nx, ny, 0);
    OffsetInRange(f, nx, ny, 3);
    PixelOfByte(f, k, nx, ny);
    TileDoneNext(ColumnOf(f.width, k), RowOf(f.width, k), p, x, y, yy, xx);
    if i <= k < i + 4 {
      PixelateByteAt(f, p, x, y, nx, ny, k - i);
    }
  }

  /** Filling an in-frame pixel (x + xx, y + yy) of the tile at (x, y) with
      the tile's mean colour advances the fill by one pixel. */
  lemma FillInside(f: Frame, p: nat, data: seq<int>, x: nat, y: nat, yy: nat, xx: nat,
                   sumR: int, sumG: int, sumB: int, count: nat)
    requires Valid(f) && p >= 1 && x % p == 0 && y % p == 0 && yy < p && xx < p
    requires InBounds(f, x + xx, y + yy)
    requires PixelatedSoFar(f, p, data, x, y, yy, xx)
    requires sumR == BoxSum(f, 0, x, x + p, y, y + p)
    requires sumG == BoxSum(f, 1, x, x + p, y, y + p)
    requires sumB == BoxSum(f, 2, x, x + p, y, y + p)
    requires count == BoxCount(f, x, x + p, y, y + p)
    ensures Offset(f.width, x + xx, y + yy, 0) + 2 < |data|
    ensures PixelatedSoFar(f, p,
      StoreColour(data, Offset(f.width, x + xx, y + yy, 0), Mean(sumR, count), Mean(sumG, count), Mean(sumB, count)),
      x, y, yy, xx + 1)
  {
    OffsetInRange(f, x + xx, y + yy, 3);
    var data' := StoreColour(data, Offset(f.width, x + xx, y + yy, 0), Mean(sumR, count), Mean(sumG, count), Mean(sumB, count));
    forall k | 0 <= k < |data'|
      ensures data'[k] == if TileDone(ColumnOf(f.width, k), RowOf(f.width, k), p, x, y, yy, xx + 1)
                          then PixelateByte(f, p, k) else f.data[k]
    {
      FillByte(f, p, data, x, y, yy, xx, sumR, sumG, sumB, count, k);
    }
  }

  /** Stepping past a pixel outside the frame changes nothing. */
  lemma FillOutside(f: Frame, p: nat, data: seq<int>, x: nat, y: nat, yy: nat, xx: nat)
    requires Valid(f) && p >= 1 && yy < p && xx < p
    requires !InBounds(f, x + xx, y + yy)
    requires PixelatedSoFar(f, p, data, x, y, yy, xx)
    ensures PixelatedSoFar(f, p, data, x, y, yy, xx + 1)
  {
    forall px, py | 0 <= px < f.width && 0 <= py < f.height
      ensures TileDone(px, py, p, x, y, yy, xx) <==> TileDone(px, py, p, x, y, yy, xx + 1)
    {
      TileDoneNext(px, py, p, x, y, yy, xx);
    }
    PixelatedSame(f, p, data, x, y, yy, xx, x, y, yy, xx + 1);
  }

  /** Finishing a pixel row of the tile moves the fill to the next row. */
  lemma FillRowDone(f: Frame, p: nat, data: seq<int>, x: nat, y: nat, yy: nat)
    requires Valid(f) && p >= 1 && PixelatedSoFar(f, p, data, x, y, yy, p)
    ensures PixelatedSoFar(f, p, data, x, y, yy + 1, 0)
  {
    PixelatedSame(f, p, data, x, y, yy, p, x, y, yy + 1, 0);
  }

  /** Finishing a tile moves the pass to the next tile of the same row. */
  lemma NextTile(f: Frame, p: nat, data: seq<int>, x: nat, y: nat)
    requires Valid(f) && p >= 1 && PixelatedSoFar(f, p, data, x, y, p, 0)
    ensures PixelatedSoFar(f, p, data, x + p, y, 0, 0)
  {
    PixelatedSame(f, p, data, x, y, p, 0, x + p, y, 0, 0);
  }

  /** Once tile origins pass the right edge, the whole tile row is done. */
  lemma TileRowDone(f: Frame, p: nat, data: seq<int>, x: nat, y: nat)
    requires Valid(f) && p >= 1 && x >= f.width && PixelatedSoFar(f, p, data, x, y, 0, 0)
    ensures PixelatedSoFar(f, p, data, 0, y + p, 0, 0)
  {
    PixelatedSame(f, p, data, x, y, 0, 0, 0, y + p, 0, 0);
  }

  /** Once tile rows pass the bottom edge, every byte holds pixelate's
      result. */
  lemma PixelateDone(f: Frame, p: nat, data: seq<int>, y: nat)
    requires Valid(f) && p >= 1 && y >= f.height && PixelatedSoFar(f, p, data, 0, y, 0, 0)
    ensures data == Pixelate(f, p).data
  {
    if f.width > 0 {
      forall k | 0 <= k < |data|
        ensures data[k] == Pixelate(f, p).data[k]
      {
        OffsetCompose(f, k);
      }
    }
  }

  /** Tile origins stay multiples of the tile size. */
  lemma NextTileAligned(t: nat, p: nat)
    requires p >= 1 && t % p == 0
    ensures (t + p) % p == 0
  {
    DivModUnique(t, p, t / p, 0);
    DivModUnique(t + p, p, t / p + 1, 0);
  }

  /** Fills the tile at (x, y) with the given mean colour, pixel row by
      pixel row, skipping pixels outside the frame. */
  method FillTile(f: Frame, p: nat, data: seq<int>, x: nat, y: nat, sumR: int, sumG: int, sumB: int, count: nat)
    returns (filled: seq<int>)
    requires Valid(f) && p >= 1 && x % p == 0 && y % p == 0
    requires PixelatedSoFar(f, p, data, x, y, 0, 0)
    requires sumR == BoxSum(f, 0, x, x + p, y, y + p)
    requires sumG == BoxSum(f, 1, x, x + p, y, y + p)
    requires sumB == BoxSum(f, 2, x, x + p, y, y + p)
    requires count == BoxCount(f, x, x + p, y, y + p)
    ensures PixelatedSoFar(f, p, filled, x + p, y, 0, 0)
  {
    filled := data;
    var yy: nat := 0;
    while yy < p
      invariant yy <= p
      invariant PixelatedSoFar(f, p, filled, x, y, yy, 0)
    {
      var xx: nat := 0;
      while xx < p
        invariant xx <= p
        invariant PixelatedSoFar(f, p, filled, x, y, yy, xx)
      {
        var nx, ny := x + xx, y + yy;
        if nx < f.width && ny < f.height {
          FillInside(f, p, filled, x, y, yy, xx, sumR, sumG, sumB, count);
          filled := StoreColour(filled, Offset(f.width, nx, ny, 0), Mean(sumR, count), Mean(sumG, count), Mean(sumB, count));
        } else {
          FillOutside(f, p, filled, x, y, yy, xx);
        }
        xx := xx + 1;
      }
      FillRowDone(f, p, filled, x, y, yy);
      yy := yy + 1;
    }
    NextTile(f, p, filled, x, y);
  }

  /** One tile: its mean colour is summed from the copy, then written to
      each of its pixels in the frame. */
  method PixelateTile(f: Frame, p: nat, data: seq<int>, x: nat, y: nat) returns (next: seq<int>)
    requires Valid(f) && p >= 1 && x % p == 0 && y % p == 0
    requires PixelatedSoFar(f, p, data, x, y, 0, 0)
    ensures PixelatedSoFar(f, p, next, x + p, y, 0, 0)
  {
    var sumR, sumG, sumB, count := WindowSums(f, x, y, 0, p - 1);
    next := FillTile(f, p, data, x, y, sumR, sumG, sumB, count);
  }

  /** One row of tiles, left to right. */
  method PixelateRow(f: Frame, p: nat, data: seq<int>, y: nat) returns (next: seq<int>)
    requires Valid(f) && p >= 1 && y % p == 0
    requires PixelatedSoFar(f, p, data, 0, y, 0, 0)
    ensures PixelatedSoFar(f, p, next, 0, y + p, 0, 0)
  {
    next := data;
    var x: nat := 0;
    while x < f.width
      invariant x % p == 0
      invariant PixelatedSoFar(f, p, next, x, y, 0, 0)
    {
      next := PixelateTile(f, p, next, x, y);
      NextTileAligned(x, p);
      x := x + p;
    }
    TileRowDone(f, p, next, x, y);
  }

  /** The pixelate pass: tile origins step by `p` over rows and columns;
      each tile's mean colour is read from the copy taken before the pass
      and written to every pixel of the tile that lies in the frame. */
  method PixelateLoop(f: Frame, p: nat) returns (g: Frame)
    requires Valid(f) && p >= 1
    ensures g == Pixelate(f, p)
  {
    var data := f.data;
    var y: nat := 0;
    while y < f.height
      invariant y % p == 0
      invariant PixelatedSoFar(f, p, data, 0, y, 0, 0)
    {
      data := PixelateRow(f, p, data, y);
      NextTileAligned(y, p);
      y := y + p;
    }
    PixelateDone(f, p, data, y);
    g := Frame(f.width, f.height, data);
  }
}

=== FILE: kernels.dfy ===
/**
 * The pixel kernels of the filter catalog that use integer or rational
 * arithmetic: invert, grayscale, comic book, pixelate and blur. Each is a
 * pure function from a frame to the frame its in-place loop leaves behind;
 * every colour byte it writes goes through the `Uint8ClampedArray` store
 * (`Clamp8`), and no kernel writes an alpha byte.
 */
module Kernels {
  import opened Uint8Clamp
  import opened Frames

  // ---------------------------------------------------------------- invert

  /** The number `invert` stores for a colour byte `v` at strength `s`: the
      complement `255 - v` weighted by `s` plus the byte weighted by `1 - s`. */
  function Blend(v: real, s: real): real {
    (255.0 - v) * s + v * (1.0 - s)
  }

  function InvertByte(v: int, s: real): int {
    Clamp8(Blend(v as real, s))
  }

  function Invert(f: Frame, s: real): (g: Frame)
    requires Valid(f)
    ensures Valid(g) && SameShape(f, g) && AlphaKept(f, g)
  {
    Frame(f.width, f.height,
      seq(|f.data|, k requires 0 <= k < |f.data| =>
        if k % 4 == 3 then f.data[k] else InvertByte(f.data[k], s)))
  }

  /** At full strength every colour byte becomes its complement. */
  lemma InvertFullComplements(f: Frame)
    requires Valid(f)
    ensures forall k :: 0 <= k < |f.data| && k % 4 != 3 ==> Invert(f, 1.0).data[k] == 255 - f.data[k]
  {
    forall k | 0 <= k < |f.data| && k % 4 != 3
      ensures Invert(f, 1.0).data[k] == 255 - f.data[k]
    {
      assert Blend(f.data[k] as real, 1.0) == (255 - f.data[k]) as real;
      Clamp8OfByte(255 - f.data[k]);
    }
  }

  /** Full-strength inversion is an involution. */
  lemma InvertInvolution(f: Frame)
    requires Valid(f)
    ensures Invert(Invert(f, 1.0), 1.0) == f
  {
    var g := Invert(f, 1.0);
    InvertFullComplements(f);
    InvertFullComplements(g);
    assert Invert(g, 1.0).data == f.data;
  }

  /** At strength 0 the frame is unchanged. */
  lemma InvertNoneIsIdentity(f: Frame)
    requires Valid(f)
    ensures Invert(f, 0.0) == f
  {
    forall k | 0 <= k < |f.data| && k % 4 != 3
      ensures Invert(f, 0.0).data[k] == f.data[k]
    {
      assert Blend(f.data[k] as real, 0.0) == f.data[k] as real;
      Clamp8OfByte(f.data[k]);
    }
    assert Invert(f, 0.0).data == f.data;
  }

  /** For `s` in [0, 1] the blend lies between `V` and `255 - V`. */
  lemma BlendBetween(V: real, s: real)
    requires 0.0 <= s <= 1.0
    ensures V <= 255.0 - V ==> V <= Blend(V, s) <= 255.0 - V
    ensures 255.0 - V <= V ==> 255.0 - V <= Blend(V, s) <= V
  {
    var a := 255.0 - 2.0 * V;
    assert Blend(V, s) == V + a * s;
    if a >= 0.0 {
      assert 0.0 <= a * s <= a;
    } else {
      assert a <= a * s <= 0.0;
    }
  }

  /** The byte written by an inversion of strength `s` in [0, 1] lies
      between the byte and its complement. */
  lemma InvertBlends(v: int, s: real)
    requires IsByte(v) && 0.0 <= s <= 1.0
    ensures v <= 255 - v ==> v <= InvertByte(v, s) <= 255 - v
    ensures 255 - v <= v ==> 255 - v <= InvertByte(v, s) <= v
  {
    BlendBetween(v as real, s);
    if v <= 255 - v {
      Clamp8Between(Blend(v as real, s), v, 255 - v);
    } else {
      Clamp8Between(Blend(v as real, s), 255 - v, v);
    }
  }

  // ------------------------------------------------------------- grayscale

  /** The luma of a pixel, with the weights as exact rationals. */
  function Luma(r: int, g: int, b: int): real {
    0.299 * r as real + 0.587 * g as real + 0.114 * b as real
  }

  /** One colour byte after grayscale: the stored luma of its pixel. */
  function GrayByte(f: Frame, k: int): int
    requires Valid(f) && 0 <= k < |f.data|
  {
    PixelInRange(f, k);
    var i := k - k % 4;
    Clamp8(Luma(f.data[i], f.data[i + 1], f.data[i + 2]))
  }

  function Grayscale(f: Frame): (g: Frame)
    requires Valid(f)
    ensures Valid(g) && SameShape(f, g) && AlphaKept(f, g)
  {
    Frame(f.width, f.height, GrayData(f))
  }

  function GrayData(f: Frame): seq<int>
    requires Valid(f)
  {
    seq(|f.data|, k requires 0 <= k < |f.data| =>
      if k % 4 == 3 then f.data[k]
      else GrayByte(f, k))
  }

  function Min3(a: int, b: int, c: int): int {
    if a <= b && a <= c then a else if b <= c then b else c
  }

  function Max3(a: int, b: int, c: int): int {
    if a >= b && a >= c then a else if b >= c then b else c
  }

  /** The weights are positive and sum to 1, so the stored luma lies between
      the darkest and the brightest channel of the pixel. */
  lemma LumaWithinChannels(r: int, g: int, b: int)
    requires IsByte(r) && IsByte(g) && IsByte(b)
    ensures Min3(r, g, b) <= Clamp8(Luma(r, g, b)) <= Max3(r, g, b)
  {
    var lo, hi := Min3(r, g, b), Max3(r, g, b);
    assert Luma(lo, lo, lo) == lo as real;
    assert Luma(hi, hi, hi) == hi as real;
    Clamp8Between(Luma(r, g, b), lo, hi);
  }

  /** Colour byte `c` of the pixel at byte `i` holds the pixel's stored
      luma. */
  lemma GrayDataAt(f: Frame, i: int, c: int)
    requires Valid(f) && 0 <= i < |f.data| && i % 4 == 0 && 0 <= c < 3
    ensures i + c < |f.data|
    ensures GrayData(f)[i + c] == GrayByte(f, i)
  {
    PixelInRange(f, i);
    assert (i + c) % 4 == c && (i + c) - (i + c) % 4 == i;
  }

  /** The three colour bytes of the pixel at byte `i` all hold its stored
      luma. */
  lemma GrayDataIsGray(f: Frame, i: int)
    requires Valid(f) && 0 <= i < |f.data| && i % 4 == 0
    ensures i + 2 < |f.data|
    ensures GrayData(f)[i] == GrayData(f)[i + 1] == GrayData(f)[i + 2] == GrayByte(f, i)
  {
    GrayDataAt(f, i, 0);
    GrayDataAt(f, i, 1);
    GrayDataAt(f, i, 2);
  }

  /** After grayscale every pixel has equal red, green and blue bytes. */
  lemma GrayscaleIsGray(f: Frame, i: int)
    requires Valid(f) && 0 <= i < |f.data| && i % 4 == 0
    ensures i + 2 < |Grayscale(f).data|
    ensures Grayscale(f).data[i] == Grayscale(f).data[i + 1] == Grayscale(f).data[i + 2]
  {
    GrayDataIsGray(f, i);
  }

  /** A pixel whose colour bytes are equal has that value as its luma. */
  lemma GrayByteOfGrayPixel(g: Frame, k: int)
    requires Valid(g) && 0 <= k < |g.data| && k % 4 != 3
    requires var i := k - k % 4; i + 2 < |g.data| && g.data[i] == g.data[i + 1] == g.data[i + 2]
    ensures GrayByte(g, k) == g.data[k]
  {
    var i := k - k % 4;
    var v := g.data[i];
    assert g.data[k] == v by {
      assert k == i || k == i + 1 || k == i + 2;
    }
    assert Luma(v, v, v) == v as real;
    Clamp8OfByte(v);
  }

  lemma GrayByteOfGray(f: Frame, k: int)
    requires Valid(f) && 0 <= k < |f.data| && k % 4 != 3
    ensures GrayByte(Grayscale(f), k) == Grayscale(f).data[k]
  {
    var i := k - k % 4;
    PixelInRange(f, k);
    GrayscaleIsGray(f, i);
    GrayByteOfGrayPixel(Grayscale(f), k);
  }

  /** Grayscale is idempotent: a gray pixel's luma is its own value. */
  lemma GrayscaleIdempotent(f: Frame)
    requires Valid(f)
    ensures Grayscale(Grayscale(f)) == Grayscale(f)
  {
    var g := Grayscale(f);
    forall k | 0 <= k < |g.data|
      ensures Grayscale(g).data[k] == g.data[k]
    {
      if k % 4 != 3 {
        GrayByteOfGray(f, k);
      }
    }
    assert Grayscale(g).data == g.data;
  }

  // ------------------------------------------------------------ comic book

  /** The three-level posterisation of one byte. The thresholds are those of
      the code: 85 is already in the middle bucket and 170 in the top one. */
  function Quantize(v: int): (q: int)
    ensures q == 0 || q == 128 || q == 255
    ensures q == 0 <==> v < 85
    ensures q == 128 <==> 85 <= v < 170
    ensures q == 255 <==> v >= 170
  {
    if v < 85 then 0
    else if v < 170 then 128
    else 255
  }

  /** Quantisation is monotone and maps each of its levels to itself. */
  lemma QuantizeMonotoneAndStable(v: int, u: int)
    ensures v <= u ==> Quantize(v) <= Quantize(u)
    ensures Quantize(Quantize(v)) == Quantize(v)
  {
  }

  function ComicBook(f: Frame): (g: Frame)
    requires Valid(f)
    ensures Valid(g) && SameShape(f, g) && AlphaKept(f, g)
    ensures forall k :: 0 <= k < |g.data| && k % 4 != 3 ==> g.data[k] in {0, 128, 255}
    ensures forall k :: 0 <= k < |g.data| && k % 4 != 3 ==> g.data[k] == Quantize(f.data[k])
  {
    Frame(f.width, f.height,
      seq(|f.data|, k requires 0 <= k < |f.data| =>
        if k % 4 == 3 then f.data[k] else Quantize(f.data[k])))
  }

  /** Comic book is idempotent. */
  lemma ComicBookIdempotent(f: Frame)
    requires Valid(f)
    ensures ComicBook(ComicBook(f)) == ComicBook(f)
  {
    var g := ComicBook(f);
    assert ComicBook(g).data == g.data;
  }

  /** One opaque gray pixel in each band: 40 goes to black, 90 (already past
      the first threshold) to 128, and 200 to white. */
  lemma ComicBookBands()
    ensures ComicBook(Frame(1, 1, [40, 40, 40, 255])) == Frame(1, 1, [0, 0, 0, 255])
    ensures ComicBook(Frame(1, 1, [90, 90, 90, 255])) == Frame(1, 1, [128, 128, 128, 255])
    ensures ComicBook(Frame(1, 1, [200, 200, 200, 255])) == Frame(1, 1, [255, 255, 255, 255])
  {
    var dark, mid, light := Frame(1, 1, [40, 40, 40, 255]), Frame(1, 1, [90, 90, 90, 255]), Frame(1, 1, [200, 200, 200, 255]);
    assert ComicBook(dark).data == [0, 0, 0, 255];
    assert ComicBook(mid).data == [128, 128, 128, 255];
    assert ComicBook(light).data == [255, 255, 255, 255];
  }

  // -------------------------------------------------------------- pixelate

  /** Start of the `p`-aligned tile that contains coordinate `x`. */
  function TileStart(x: nat, p: nat): nat
    requires p >= 1
  {
    (x / p) * p
  }

  /** The tile the pixelate loop visits for `x` is the only `p`-aligned tile
      that contains it: the loops step tile origins by `p` from 0. */
  lemma TileContains(x: nat, p: nat, t: nat)
    requires p >= 1
    ensures TileStart(x, p) % p == 0
    ensures TileStart(x, p) <= x < TileStart(x, p) + p
    ensures t % p == 0 && t <= x < t + p ==> t == TileStart(x, p)
  {
    DivModUnique(TileStart(x, p), p, x / p, 0);
    if t % p == 0 && t <= x < t + p {
      DivModUnique(t, p, t / p, 0);
      DivModUnique(x, p, t / p, x - t);
    }
  }

  function PixelateByte(f: Frame, p: nat, k: nat): (b: int)
    requires Valid(f) && p >= 1 && k < |f.data|
  {
    NonEmptyHasPixels(f);
    var x, y, c := ColumnOf(f.width, k), RowOf(f.width, k), ChannelOf(k);
    if c == 3 then f.data[k]
    else
      var tx, ty := TileStart(x, p), TileStart(y, p);
      Mean(BoxSum(f, c, tx, tx + p, ty, ty + p), BoxCount(f, tx, tx + p, ty, ty + p))
  }

  /** Every pixel gets the mean colour of the `p` x `p` tile that contains
      it, clipped to the frame. */
  function Pixelate(f: Frame, p: nat): (g: Frame)
    requires Valid(f) && p >= 1
    ensures Valid(g) && SameShape(f, g) && AlphaKept(f, g)
  {
    Frame(f.width, f.height,
      seq(|f.data|, k requires 0 <= k < |f.data| => PixelateByte(f, p, k)))
  }

  /** The tile of an in-bounds pixel counts at least that pixel. */
  lemma PixelateCountPositive(f: Frame, p: nat, x: nat, y: nat)
    requires p >= 1 && InBounds(f, x, y)
    ensures var tx, ty := TileStart(x, p), TileStart(y, p);
            BoxCount(f, tx, tx + p, ty, ty + p) >= 1
  {
    TileContains(x, p, 0);
    TileContains(y, p, 0);
    BoxCountPositive(f, TileStart(x, p), TileStart(x, p) + p, TileStart(y, p), TileStart(y, p) + p, x, y);
  }

  /** Two pixels in the same tile get the same colour. */
  lemma PixelateTileUniform(f: Frame, p: nat, x1: nat, y1: nat, x2: nat, y2: nat, c: nat)
    requires Valid(f) && p >= 1 && c < 3
    requires InBounds(f, x1, y1) && InBounds(f, x2, y2)
    requires TileStart(x1, p) == TileStart(x2, p) && TileStart(y1, p) == TileStart(y2, p)
    ensures Offset(f.width, x1, y1, c) < |f.data| && Offset(f.width, x2, y2, c) < |f.data|
    ensures Pixelate(f, p).data[Offset(f.width, x1, y1, c)] == Pixelate(f, p).data[Offset(f.width, x2, y2, c)]
  {
    OffsetInRange(f, x1, y1, c);
    OffsetInRange(f, x2, y2, c);
    OffsetDecompose(f.width, x1, y1, c);
    OffsetDecompose(f.width, x2, y2, c);
  }

  /** The colour given to a pixel lies between the least and the greatest
      value of that channel in its tile. */
  lemma PixelateWithinTile(f: Frame, p: nat, x: nat, y: nat, c: nat, lo: int, hi: int)
    requires Valid(f) && p >= 1 && c < 3 && InBounds(f, x, y) && IsByte(lo) && IsByte(hi)
    requires BoxWithin(f, c, TileStart(x, p), TileStart(x, p) + p, TileStart(y, p), TileStart(y, p) + p, lo, hi)
    ensures Offset(f.width, x, y, c) < |f.data|
    ensures lo <= Pixelate(f, p).data[Offset(f.width, x, y, c)] <= hi
  {
    OffsetInRange(f, x, y, c);
    OffsetDecompose(f.width, x, y, c);
    PixelateCountPositive(f, p, x, y);
    BoxMeanWithin(f, c, TileStart(x, p), TileStart(x, p) + p, TileStart(y, p), TileStart(y, p) + p, lo, hi);
  }

  lemma PixelateOneByte(f: Frame, k: nat)
    requires Valid(f) && k < |f.data|
    ensures PixelateByte(f, 1, k) == f.data[k]
  {
    NonEmptyHasPixels(f);
    var x, y, c := ColumnOf(f.width, k), RowOf(f.width, k), ChannelOf(k);
    if c != 3 {
      OffsetCompose(f, k);
      assert TileStart(x, 1) == x && TileStart(y, 1) == y;
      assert RowSum(f, c, y, x, x + 1) == Sample(f, c, x, y) == f.data[k];
      assert BoxSum(f, c, x, x + 1, y, y + 1) == f.data[k];
      assert RowCount(f, y, x, x + 1) == 1;
      assert BoxCount(f, x, x + 1, y, y + 1) == 1;
      Clamp8OfByte(f.data[k]);
    }
  }

  /** Tiles of size 1 leave the frame unchanged. */
  lemma PixelateOneIsIdentity(f: Frame)
    requires Valid(f)
    ensures Pixelate(f, 1) == f
  {
    var g := Pixelate(f, 1);
    forall k | 0 <= k < |f.data|
      ensures g.data[k] == f.data[k]
    {
      PixelateOneByte(f, k);
    }
    assert g.data == f.data;
  }

  // ------------------------------------------------------------------ blur

  function BlurByte(f: Frame, r: nat, k: nat): (b: int)
    requires Valid(f) && k < |f.data|
  {
    NonEmptyHasPixels(f);
    var x, y, c := ColumnOf(f.width, k), RowOf(f.width, k), ChannelOf(k);
    if c == 3 then f.data[k]
    else Mean(BoxSum(f, c, x - r, x + r + 1, y - r, y + r + 1), BoxCount(f, x - r, x + r + 1, y - r, y + r + 1))
  }

  /** Every pixel gets the mean colour of the (2r+1) x (2r+1) window centred
      on it, clipped to the frame, read from the frame before the pass. */
  function Blur(f: Frame, r: nat): (g: Frame)
    requires Valid(f)
    ensures Valid(g) && SameShape(f, g) && AlphaKept(f, g)
  {
    Frame(f.width, f.height, BlurData(f, r))
  }

  function BlurData(f: Frame, r: nat): seq<int>
    requires Valid(f)
  {
    seq(|f.data|, k requires 0 <= k < |f.data| => BlurByte(f, r, k))
  }

  /** The blurred value of a pixel lies between the least and the greatest
      value of that channel in its window. */
  lemma BlurWithinWindow(f: Frame, r: nat, x: nat, y: nat, c: nat, lo: int, hi: int)
    requires Valid(f) && c < 3 && InBounds(f, x, y) && IsByte(lo) && IsByte(hi)
    requires BoxWithin(f, c, x - r, x + r + 1, y - r, y + r + 1, lo, hi)
    ensures Offset(f.width, x, y, c) < |f.data|
    ensures lo <= Blur(f, r).data[Offset(f.width, x, y, c)] <= hi
  {
    OffsetInRange(f, x, y, c);
    OffsetDecompose(f.width, x, y, c);
    BoxCountPositive(f, x - r, x + r + 1, y - r, y + r + 1, x, y);
    BoxMeanWithin(f, c, x - r, x + r + 1, y - r, y + r + 1, lo, hi);
  }

  /** A frame of one flat colour is a fixed point of blur. */
  lemma BlurFlatIsFixed(f: Frame, r: nat)
    requires Valid(f) && Flat(f)
    ensures Blur(f, r) == f
  {
    var g := Blur(f, r);
    forall k | 0 <= k < |f.data| && k % 4 != 3
      ensures g.data[k] == f.data[k]
    {
      NonEmptyHasPixels(f);
      var x, y, c := ColumnOf(f.width, k), RowOf(f.width, k), ChannelOf(k);
      OffsetCompose(f, k);
      var v := f.data[c];
      forall x', y' | x - r <= x' < x + r + 1 && y - r <= y' < y + r + 1 && InBounds(f, x', y')
        ensures v <= Sample(f, c, x', y') <= v
      {
        FlatSample(f, c, x', y');
      }
      BlurWithinWindow(f, r, x, y, c, v, v);
    }
    assert g.data == f.data;
  }
}

=== FILE: pipeline.dfy ===
/**
 * Running a filter pipeline over a frame: each configuration is resolved in
 * the catalog by its `type` and its kernel applied, in order. A configuration
 * whose `type` is not a catalog key is skipped, and so is an empty slot.
 */
module Pipeline {
  import opened Wrappers
  import opened Frames
  import opened Catalog

  predicate AllWellFormed(cs: seq<Config>) {
    forall i :: 0 <= i < |cs| ==> WellFormed(cs[i])
  }

  predicate SlotsWellFormed(slots: seq<Option<Config>>) {
    forall i :: 0 <= i < |slots| && slots[i].Some? ==> WellFormed(slots[i].value)
  }

  /** One step of the loop: the kernel of the config's type, or nothing when
      the type is unknown. */
  function ApplyOne(f: Frame, c: Config, ext: (Config, Frame) -> Frame): (g: Frame)
    requires Valid(f) && WellFormed(c) && ExtKernels(ext)
    ensures Valid(g) && SameShape(f, g)
    ensures Lookup(c.kind).None? ==> g == f
    ensures Lookup(c.kind).Some? ==> g == Kernel(Lookup(c.kind).value, f, c, ext)
  {
    match Lookup(c.kind)
    case None => f
    case Some(k) => Kernel(k, f, c, ext)
  }

  /** Applies a list of configurations front to back. */
  function ApplyList(f: Frame, cs: seq<Config>, ext: (Config, Frame) -> Frame): (g: Frame)
    requires Valid(f) && AllWellFormed(cs) && ExtKernels(ext)
    ensures Valid(g) && SameShape(f, g)
    decreases |cs|
  {
    if |cs| == 0 then f else ApplyList(ApplyOne(f, cs[0], ext), cs[1..], ext)
  }

  /** Applies the slots in index order, skipping empty ones. */
  function ApplySlots(f: Frame, slots: seq<Option<Config>>, ext: (Config, Frame) -> Frame): (g: Frame)
    requires Valid(f) && SlotsWellFormed(slots) && ExtKernels(ext)
    ensures Valid(g) && SameShape(f, g)
    decreases |slots|
  {
    if |slots| == 0 then f
    else
      var f' := if slots[0].Some? then ApplyOne(f, slots[0].value, ext) else f;
      ApplySlots(f', slots[1..], ext)
  }

  /** The configurations held by the slots, in slot order. */
  function Present(slots: seq<Option<Config>>): (cs: seq<Config>)
    ensures |cs| <= |slots|
    ensures SlotsWellFormed(slots) ==> AllWellFormed(cs)
    ensures forall c :: c in cs <==> Some(c) in slots
  {
    if |slots| == 0 then []
    else (if slots[0].Some? then [slots[0].value] else []) + Present(slots[1..])
  }

  /** Running the slots is running the list of their configurations: an
      empty slot contributes nothing. */
  lemma {:induction false} ApplySlotsIsApplyList(f: Frame, slots: seq<Option<Config>>, ext: (Config, Frame) -> Frame)
    requires Valid(f) && SlotsWellFormed(slots) && ExtKernels(ext)
    ensures ApplySlots(f, slots, ext) == ApplyList(f, Present(slots), ext)
    decreases |slots|
  {
    if |slots| > 0 {
      var f' := if slots[0].Some? then ApplyOne(f, slots[0].value, ext) else f;
      ApplySlotsIsApplyList(f', slots[1..], ext);
      if slots[0].Some? {
        assert Present(slots) == [slots[0].value] + Present(slots[1..]);
        assert Present(slots)[1..] == Present(slots[1..]);
      } else {
        assert Present(slots) == Present(slots[1..]);
      }
    }
  }

  /** The list runs in order: running `a + b` is running `a`, then `b`. */
  lemma {:induction false} ApplyListAppend(f: Frame, a: seq<Config>, b: seq<Config>, ext: (Config, Frame) -> Frame)
    requires Valid(f) && AllWellFormed(a) && AllWellFormed(b) && ExtKernels(ext)
    ensures AllWellFormed(a + b)
    ensures ApplyList(f, a + b, ext) == ApplyList(ApplyList(f, a, ext), b, ext)
    decreases |a|
  {
    if |a| > 0 {
      assert (a + b)[0] == a[0] && (a + b)[1..] == a[1..] + b;
      ApplyListAppend(ApplyOne(f, a[0], ext), a[1..], b, ext);
    } else {
      assert a + b == b;
    }
  }

  /** A configuration of unknown type is skipped without affecting the ones
      around it. */
  lemma ApplyListSkipsUnknown(f: Frame, a: seq<Config>, c: Config, b: seq<Config>, ext: (Config, Frame) -> Frame)
    requires Valid(f) && AllWellFormed(a) && WellFormed(c) && AllWellFormed(b) && ExtKernels(ext)
    requires Lookup(c.kind).None?
    ensures AllWellFormed(a + [c] + b)
    ensures ApplyList(f, a + [c] + b, ext) == ApplyList(f, a + b, ext)
  {
    ApplyListAppend(f, a, [c] + b, ext);
    assert a + [c] + b == a + ([c] + b);
    var g := ApplyList(f, a, ext);
    assert ([c] + b)[1..] == b;
    ApplyListAppend(f, a, b, ext);
  }

  /** No configuration of the list is a swirl, the one kernel that moves
      alpha bytes. */
  predicate AlphaSafe(cs: seq<Config>) {
    forall i :: 0 <= i < |cs| ==> Lookup(cs[i].kind) != Some(Swirl)
  }

  /** No configuration of the list is a colour fade, the one kernel whose
      configuration changes as it runs: each run advances its `phase`, so
      two copies of it drift apart. */
  predicate FadeFree(cs: seq<Config>) {
    forall i :: 0 <= i < |cs| ==> Lookup(cs[i].kind) != Some(ColorFade)
  }

  /** A list without a swirl never writes alpha (colour fade keeps alpha by
      `ExtKernels`). */
  lemma {:induction false} ApplyListKeepsAlpha(f: Frame, cs: seq<Config>, ext: (Config, Frame) -> Frame)
    requires Valid(f) && AllWellFormed(cs) && ExtKernels(ext)
    requires AlphaSafe(cs)
    ensures AlphaKept(f, ApplyList(f, cs, ext))
    decreases |cs|
  {
    if |cs| > 0 {
      var g := ApplyOne(f, cs[0], ext);
      ApplyListKeepsAlpha(g, cs[1..], ext);
    }
  }

  /** A pipeline whose slots are all empty leaves the frame as it was. */
  lemma {:induction false} EmptySlotsAreIdentity(f: Frame, slots: seq<Option<Config>>, ext: (Config, Frame) -> Frame)
    requires Valid(f) && ExtKernels(ext)
    requires forall i :: 0 <= i < |slots| ==> slots[i].None?
    ensures ApplySlots(f, slots, ext) == f
    decreases |slots|
  {
    if |slots| > 0 {
      EmptySlotsAreIdentity(f, slots[1..], ext);
    }
  }

  /** Two default inverts in a row cancel, while one alone is a full
      inversion. */
  lemma DoubleInvertCancels(f: Frame, ext: (Config, Frame) -> Frame)
    requires Valid(f) && ExtKernels(ext)
    ensures ApplyList(f, [DefaultConfig(Invert)], ext) == Kernels.Invert(f, 1.0)
    ensures ApplyList(f, [DefaultConfig(Invert), DefaultConfig(Invert)], ext) == f
  {
    var c := DefaultConfig(Invert);
    var g := ApplyOne(f, c, ext);
    assert g == Kernels.Invert(f, 1.0);
    assert [c, c][1..] == [c];
    assert ApplyList(f, [c, c], ext) == ApplyList(g, [c], ext);
    assert ApplyList(g, [c], ext) == ApplyOne(g, c, ext);
    Kernels.InvertInvolution(f);
  }

  /** A second default grayscale, or a second default comic book, right
      after the first changes nothing; one alone runs its kernel. */
  lemma RepeatedEntryIsIdle(f: Frame, k: FilterKind, ext: (Config, Frame) -> Frame)
    requires Valid(f) && ExtKernels(ext) && k in {Grayscale, ComicBook}
    ensures k == Grayscale ==> ApplyList(f, [DefaultConfig(k)], ext) == Kernels.Grayscale(f)
    ensures k == ComicBook ==> ApplyList(f, [DefaultConfig(k)], ext) == Kernels.ComicBook(f)
    ensures ApplyList(f, [DefaultConfig(k), DefaultConfig(k)], ext) == ApplyList(f, [DefaultConfig(k)], ext)
  {
    var c := DefaultConfig(k);
    var g := ApplyOne(f, c, ext);
    assert [c, c][1..] == [c];
    assert ApplyList(f, [c, c], ext) == ApplyList(g, [c], ext);
    assert ApplyList(g, [c], ext) == ApplyOne(g, c, ext);
    assert ApplyList(f, [c], ext) == g;
    if k == Grayscale {
      Kernels.GrayscaleIdempotent(f);
    } else {
      Kernels.ComicBookIdempotent(f);
    }
  }
}

=== FILE: puzzles.dfy ===
/**
 * Puzzle mode: a secret list of filters is drawn from the catalog, the
 * player fills four slots, and the two results are compared byte by byte.
 * `Math.random` is replaced by an explicit sequence of draws in [0, 1),
 * consumed in the order the source calls it.
 */
module Puzzles {
  import opened Wrappers
  import opened Frames
  import opened Catalog
  import opened Slots
  import Pipeline

  // --------------------------------------------------------------- scoring

  /** Two bytes match when they differ by less than this. */
  const Tolerance := 5

  predicate Matches(a: int, b: int) {
    -Tolerance < a - b < Tolerance
  }

  /** Number of positions where the two buffers match, alpha included. */
  function MatchCount(u: seq<int>, t: seq<int>): (n: nat)
    requires |u| == |t|
    ensures n <= |u|
    decreases |u|
  {
    if |u| == 0 then 0
    else MatchCount(u[..|u| - 1], t[..|t| - 1]) + (if Matches(u[|u| - 1], t[|t| - 1]) then 1 else 0)
  }

  /** The count does not depend on which buffer is the player's. */
  lemma {:induction false} MatchCountSymmetric(u: seq<int>, t: seq<int>)
    requires |u| == |t|
    ensures MatchCount(u, t) == MatchCount(t, u)
    decreases |u|
  {
    if |u| > 0 {
      MatchCountSymmetric(u[..|u| - 1], t[..|t| - 1]);
    }
  }

  /** A buffer matches itself everywhere. */
  lemma {:induction false} MatchCountSelf(u: seq<int>)
    ensures MatchCount(u, u) == |u|
    decreases |u|
  {
    if |u| > 0 {
      MatchCountSelf(u[..|u| - 1]);
    }
  }

  /** The counting loop of the comparison. */
  method SameCount(u: seq<int>, t: seq<int>) returns (n: nat)
    requires |u| == |t|
    ensures n == MatchCount(u, t)
    ensures n <= |u|
  {
    n := 0;
    var i := 0;
    while i < |u|
      invariant 0 <= i <= |u|
      invariant n == MatchCount(u[..i], t[..i])
    {
      assert u[..i + 1][..i] == u[..i] && t[..i + 1][..i] == t[..i];
      if Matches(u[i], t[i]) {
        n := n + 1;
      }
      i := i + 1;
    }
    assert u[..i] == u && t[..i] == t;
  }

  /** Outcome of a comparison: the frames cannot be compared, or `same` of
      `total` bytes match. */
  datatype Comparison = CannotCompare | Compared(same: nat, total: nat)

  /** Compares the player's frame with the target. A missing target or one of
      other dimensions yields no score. */
  method CompareAndScore(user: Frame, target: Option<Frame>) returns (r: Comparison)
    requires Valid(user) && (target.Some? ==> Valid(target.value))
    ensures r.CannotCompare? <==> target.None? || target.value.width != user.width || target.value.height != user.height
    ensures r.Compared? ==> r.total == |user.data| == |target.value.data|
    ensures r.Compared? ==> r.same == MatchCount(user.data, target.value.data) <= r.total
  {
    if target.None? || target.value.width != user.width || target.value.height != user.height {
      return CannotCompare;
    }
    var same := SameCount(user.data, target.value.data);
    r := Compared(same, |user.data|);
  }

  /** The score shown to the player: the percentage of matching bytes. A
      zero total would make the ratio `0 / 0`; the page never gets there,
      since reading the pixels of a canvas with no width or height throws
      first, and the model gives no score for it. */
  function Percentage(same: nat, total: nat): (pct: Option<real>)
    requires same <= total
    ensures pct.None? <==> total == 0
    ensures pct.Some? ==> 0.0 <= pct.value <= 100.0
    ensures pct.Some? ==> (pct.value == 100.0 <==> same == total)
  {
    if total == 0 then None else Some(100.0 * (same as real / total as real))
  }

  /** When the player's slots hold the secret list, in order and with any
      gaps, the two frames match completely: the score is 100%. A colour
      fade is excluded: the player's copy and the secret's copy advance
      their phase on different renders, so the two frames differ. */
  lemma SolvedPuzzleScoresFull(source: Frame, slots: seq<Option<Config>>, secret: seq<Config>, ext: (Config, Frame) -> Frame)
    requires Valid(source) && |source.data| > 0 && ExtKernels(ext)
    requires Pipeline.SlotsWellFormed(slots) && Pipeline.Present(slots) == secret
    requires Pipeline.FadeFree(secret)
    ensures var user := Pipeline.ApplySlots(source, slots, ext);
            var target := Pipeline.ApplyList(source, secret, ext);
            MatchCount(user.data, target.data) == |user.data| > 0
            && Percentage(MatchCount(user.data, target.data), |user.data|) == Some(100.0)
  {
    Pipeline.ApplySlotsIsApplyList(source, slots, ext);
    MatchCountSelf(Pipeline.ApplySlots(source, slots, ext).data);
  }

  /** Positions where the two buffers hold the same byte are matches; below
      `n` there are `n / 4` alpha positions. */
  lemma {:induction false} AlphaMatches(u: seq<int>, t: seq<int>, n: nat)
    requires |u| == |t| && n <= |u|
    requires forall k :: 0 <= k < |u| && k % 4 == 3 ==> u[k] == t[k]
    ensures MatchCount(u[..n], t[..n]) >= n / 4
    decreases n
  {
    if n > 0 {
      assert u[..n][..n - 1] == u[..n - 1] && t[..n][..n - 1] == t[..n - 1];
      AlphaMatches(u, t, n - 1);
      if (n - 1) % 4 == 3 {
        assert n / 4 == (n - 1) / 4 + 1;
        assert Matches(u[n - 1], t[n - 1]);
      } else {
        assert n / 4 == (n - 1) / 4;
      }
    }
  }

  /** Frames whose alpha bytes agree match on at least a quarter of their
      bytes, since the comparison counts alpha too. */
  lemma ScoreFloor(u: Frame, t: Frame)
    requires Valid(u) && Valid(t) && SameShape(u, t)
    requires AlphaKept(u, t)
    ensures 4 * MatchCount(u.data, t.data) >= |u.data|
  {
    var n := |u.data|;
    var m := u.width * u.height;
    assert n == m * 4;
    AlphaMatches(u.data, t.data, n);
    assert u.data[..n] == u.data && t.data[..n] == t.data;
    assert n / 4 == m;
  }

  /** The player's frame and the target are both drawn from the same image;
      when neither list holds a swirl, both keep the image's alpha, so every
      attempt scores at least 25%. */
  lemma PuzzleScoreFloor(source: Frame, slots: seq<Option<Config>>, secret: seq<Config>, ext: (Config, Frame) -> Frame)
    requires Valid(source) && |source.data| > 0 && ExtKernels(ext)
    requires Pipeline.SlotsWellFormed(slots) && Pipeline.AllWellFormed(secret)
    requires Pipeline.AlphaSafe(Pipeline.Present(slots)) && Pipeline.AlphaSafe(secret)
    ensures var user := Pipeline.ApplySlots(source, slots, ext);
            var target := Pipeline.ApplyList(source, secret, ext);
            Percentage(MatchCount(user.data, target.data), |user.data|).Some?
            && Percentage(MatchCount(user.data, target.data), |user.data|).value >= 25.0
  {
    var user := Pipeline.ApplySlots(source, slots, ext);
    var target := Pipeline.ApplyList(source, secret, ext);
    Pipeline.ApplySlotsIsApplyList(source, slots, ext);
    Pipeline.ApplyListKeepsAlpha(source, Pipeline.Present(slots), ext);
    Pipeline.ApplyListKeepsAlpha(source, secret, ext);
    ScoreFloor(user, target);
    QuarterScore(MatchCount(user.data, target.data), |user.data|);
  }

  lemma QuarterScore(same: nat, total: nat)
    requires same <= total && 0 < total <= 4 * same
    ensures Percentage(same, total).Some? && Percentage(same, total).value >= 25.0
  {
    assert (4 * same) as real >= total as real;
    RealDivAtLeast(same as real, total as real, 0.25);
  }

  lemma RealDivAtLeast(a: real, b: real, c: real)
    requires b > 0.0 && a >= c * b
    ensures a / b >= c
  {
    var d := a - c * b;
    assert a / b == c + d / b;
  }

  // ------------------------------------------------------------ randomness

  /** `Math.floor(r * n)` for a draw `r` in [0, 1): an index below `n`. */
  function DrawIndex(r: real, n: nat): (j: int)
    requires 0.0 <= r < 1.0
    ensures n > 0 ==> 0 <= j < n
  {
    assert 0.0 <= r * n as real <= n as real;
    assert n > 0 ==> r * n as real < n as real;
    (r * n as real).Floor
  }

  predicate AreDraws(draws: seq<real>) {
    forall d :: 0 <= d < |draws| ==> 0.0 <= draws[d] < 1.0
  }

  /** An element at a random index; an empty array yields nothing. */
  function RandomPick<T>(arr: seq<T>, r: real): (x: Option<T>)
    requires 0.0 <= r < 1.0
    ensures |arr| > 0 <==> x.Some?
    ensures x.Some? ==> x.value in arr
  {
    var i := DrawIndex(r, |arr|);
    if 0 <= i < |arr| then Some(arr[i]) else None
  }

  /** Fisher-Yates on a copy of `arr`: position `i`, from the last down to 1,
      is swapped with a random position `j` in [0, i]. The draw for position
      `i` is `draws[|arr| - 1 - i]`. */
  method ShuffleArray<T>(arr: seq<T>, draws: seq<real>) returns (a: seq<T>)
    requires AreDraws(draws) && |arr| <= |draws| + 1
    ensures |a| == |arr|
    ensures multiset(a) == multiset(arr)
  {
    a := arr;
    var i := |a| - 1;
    while i > 0
      invariant -1 <= i < |a| == |arr|
      invariant multiset(a) == multiset(arr)
      decreases i
    {
      var j := DrawIndex(draws[|arr| - 1 - i], i + 1);
      a := a[i := a[j]][j := a[i]];
      i := i - 1;
    }
  }

  // ------------------------------------------------------------ new puzzle

  const ImagesList: seq<string> := ["images/background_logo.png"]

  /** The largest number of filters in a secret combination. */
  const MaxFilters := 3

  datatype Puzzle = Puzzle(image: Option<string>, secret: seq<Config>, slots: seq<Option<Config>>)

  predicate Distinct<T(==)>(s: seq<T>) {
    forall i, j :: 0 <= i < j < |s| ==> s[i] != s[j]
  }

  lemma {:induction false} DistinctCounts<T>(s: seq<T>, x: T)
    requires Distinct(s)
    ensures multiset(s)[x] <= 1
    decreases |s|
  {
    if |s| > 0 {
      var t := s[1..];
      assert s == [s[0]] + t;
      assert Distinct(t);
      DistinctCounts(t, x);
      if x == s[0] {
        assert x !in t;
      }
    }
  }

  lemma RepeatCounts<T>(s: seq<T>, i: int, j: int)
    requires 0 <= i < j < |s| && s[i] == s[j]
    ensures multiset(s)[s[i]] >= 2
  {
    assert s == s[..j] + [s[j]] + s[j + 1..];
    assert s[i] in s[..j];
  }

  /** A permutation of a sequence without repeats has none either. */
  lemma PermutationKeepsDistinct<T>(s: seq<T>, t: seq<T>)
    requires Distinct(s) && multiset(t) == multiset(s)
    ensures Distinct(t)
  {
    forall i, j | 0 <= i < j < |t|
      ensures t[i] != t[j]
    {
      if t[i] == t[j] {
        RepeatCounts(t, i, j);
        DistinctCounts(s, t[i]);
        assert false;
      }
    }
  }

  /** A reordering of the catalog's keys lists each known key once. */
  lemma ShuffledKeys(shuffled: seq<string>)
    requires multiset(shuffled) == multiset(Keys)
    ensures Distinct(shuffled) && |shuffled| == |Keys|
    ensures forall i :: 0 <= i < |shuffled| ==> Lookup(shuffled[i]).Some?
  {
    CatalogKeys(Invert, "");
    PermutationKeepsDistinct(Keys, shuffled);
    assert |shuffled| == |multiset(shuffled)| == |multiset(Keys)| == |Keys|;
    forall i | 0 <= i < |shuffled|
      ensures Lookup(shuffled[i]).Some?
    {
      assert shuffled[i] in multiset(Keys);
      CatalogKeys(Invert, shuffled[i]);
    }
  }

  /** The first `n` keys of a shuffled catalog are known and distinct. */
  lemma ChosenKeys(shuffled: seq<string>, n: int)
    requires Distinct(shuffled) && 0 <= n <= |shuffled|
    requires forall i :: 0 <= i < |shuffled| ==> Lookup(shuffled[i]).Some?
    ensures Distinct(shuffled[..n])
    ensures forall i :: 0 <= i < n ==> Lookup(shuffled[..n][i]).Some?
  {
  }

  /** The secret list for the chosen keys: each key's default configuration. */
  function SecretFor(chosen: seq<string>): (secret: seq<Config>)
    requires forall i :: 0 <= i < |chosen| ==> Lookup(chosen[i]).Some?
    ensures |secret| == |chosen|
    ensures forall i :: 0 <= i < |chosen| ==> secret[i].kind == chosen[i]
    ensures forall i :: 0 <= i < |secret| ==>
      Lookup(secret[i].kind).Some? && secret[i] == DefaultConfig(Lookup(secret[i].kind).value)
    ensures Distinct(chosen) ==> forall i, j :: 0 <= i < j < |secret| ==> secret[i].kind != secret[j].kind
  {
    seq(|chosen|, i requires 0 <= i < |chosen| => DefaultConfig(Lookup(chosen[i]).value))
  }

  /** Starts a puzzle: empties the slots, picks an image, and draws a
      secret of 1 to `MaxFilters` distinct catalog entries, each in its
      default configuration. */
  method NewPuzzle(draws: seq<real>) returns (p: Puzzle)
    requires AreDraws(draws) && |draws| >= 2 + |Keys| - 1
    ensures p.slots == NoSlots
    ensures p.image.Some? && p.image.value in ImagesList
    ensures |p.secret| == 1 + DrawIndex(draws[1], MaxFilters)
    ensures 1 <= |p.secret| <= MaxFilters
    ensures forall i, j :: 0 <= i < j < |p.secret| ==> p.secret[i].kind != p.secret[j].kind
    ensures forall i :: 0 <= i < |p.secret| ==>
      Lookup(p.secret[i].kind).Some? && p.secret[i] == DefaultConfig(Lookup(p.secret[i].kind).value)
  {
    var image := RandomPick(ImagesList, draws[0]);
    var numFilters := 1 + DrawIndex(draws[1], MaxFilters);
    var shuffled := ShuffleArray(Keys, draws[2..]);
    ShuffledKeys(shuffled);
    ChosenKeys(shuffled, numFilters);
    var chosen := shuffled[..numFilters];
    var secret := SecretFor(chosen);
    p := Puzzle(image, secret, NoSlots);
  }

  // ------------------------------------------------------------ slot edits

  /** A drop on slot `target` in puzzle mode. Unlike the live view, a bank
      drop always installs a fresh default configuration. */
  function PuzzleSlotDrop(s: seq<Option<Config>>, filterKey: string, src: DragSource, target: Option<SlotIndex>): (r: seq<Option<Config>>)
    requires |s| == SlotCount
    ensures |r| == SlotCount
    ensures filterKey == "" || target.None? || src.FromElsewhere? ==> r == s
    ensures src.FromBank? && Lookup(filterKey).None? ==> r == s
    ensures src.FromBank? && filterKey != "" && target.Some? && Lookup(filterKey).Some? ==>
      OthersKept(s, r, target.value) && r[target.value] == Some(DefaultConfig(Lookup(filterKey).value))
    ensures src.FromSlot? && filterKey != "" && target.Some? ==> r == Move(s, src.index, target.value)
  {
    if filterKey == "" || target.None? then s
    else
      var t := target.value;
      match src
      case FromSlot(from) => Move(s, from, t)
      case FromBank =>
        (match Lookup(filterKey)
         case None => s
         case Some(k) => s[t := Some(DefaultConfig(k))])
      case FromElsewhere => s
  }

  /** The two views' bank drops agree except on a slot that already holds a
      configuration of the dropped type: the live view keeps it, puzzle mode
      resets it to the default. */
  lemma BankDropsCompared(s: seq<Option<Config>>, filterKey: string, t: SlotIndex)
    requires |s| == SlotCount && filterKey != "" && Lookup(filterKey).Some?
    ensures s[t].None? || s[t].value.kind != filterKey ==>
      SlotDrop(s, filterKey, FromBank, Some(t)) == PuzzleSlotDrop(s, filterKey, FromBank, Some(t))
    ensures s[t].Some? && s[t].value.kind == filterKey ==>
      SlotDrop(s, filterKey, FromBank, Some(t)) == s
      && PuzzleSlotDrop(s, filterKey, FromBank, Some(t))[t] == Some(DefaultConfig(Lookup(filterKey).value))
  {
  }

  /** Puzzle-mode edits keep four slots of well-formed configurations. */
  lemma PuzzleEditsKeepSlotsOk(s: seq<Option<Config>>, filterKey: string, src: DragSource, target: Option<SlotIndex>)
    requires SlotsOk(s)
    ensures SlotsOk(PuzzleSlotDrop(s, filterKey, src, target))
  {
  }
}

=== FILE: slots.dfy ===
/**
 * The four pipeline slots of the live view and the drag-and-drop edits that
 * change them. A slot holds a configuration or nothing; a drop names the
 * dragged filter key, where the drag started and the slot it landed on.
 */
module Slots {
  import opened Wrappers
  import opened Catalog
  import Pipeline

  const SlotCount := 4

  type SlotIndex = i: int | 0 <= i < SlotCount

  /** Where a drag started: an emoji of the filter bank, an occupied slot, or
      anywhere else (a drag whose `source` is neither `bank` nor `slot`). */
  datatype DragSource = FromBank | FromSlot(index: SlotIndex) | FromElsewhere

  /** No slot is filled initially. */
  const NoSlots: seq<Option<Config>> := [None, None, None, None]

  /** The slots' invariant: four entries, each configuration well formed. */
  predicate SlotsOk(s: seq<Option<Config>>) {
    |s| == SlotCount && Pipeline.SlotsWellFormed(s)
  }

  /** Every slot other than `t` holds what it held before. */
  predicate OthersKept(s: seq<Option<Config>>, r: seq<Option<Config>>, t: int)
    requires |s| == |r|
  {
    forall i :: 0 <= i < |s| && i != t ==> r[i] == s[i]
  }

  /** Moves slot `from`'s content to slot `to` (no copy) and empties `from`;
      when the two coincide, the slot ends up empty. */
  function Move(s: seq<Option<Config>>, from: SlotIndex, to: SlotIndex): (r: seq<Option<Config>>)
    requires |s| == SlotCount
    ensures |r| == SlotCount
    ensures r[from] == None
    ensures to != from ==> r[to] == s[from]
    ensures forall i :: 0 <= i < SlotCount && i != from && i != to ==> r[i] == s[i]
  {
    s[to := s[from]][from := None]
  }

  /** A drop on slot `target` in the live view. A bank drop installs the
      entry's default configuration unless the slot already holds a
      configuration of that type, which it keeps with its edited fields. */
  function SlotDrop(s: seq<Option<Config>>, filterKey: string, src: DragSource, target: Option<SlotIndex>): (r: seq<Option<Config>>)
    requires |s| == SlotCount
    ensures |r| == SlotCount
    ensures filterKey == "" || target.None? || src.FromElsewhere? ==> r == s
    ensures src.FromBank? && Lookup(filterKey).None? ==> r == s
    ensures src.FromBank? && filterKey != "" && target.Some? && Lookup(filterKey).Some? ==>
      var t := target.value;
      && OthersKept(s, r, t)
      && r[t].Some? && r[t].value.kind == filterKey
      && (s[t].Some? && s[t].value.kind == filterKey ==> r[t] == s[t])
      && (s[t].None? || s[t].value.kind != filterKey ==> r[t] == Some(DefaultConfig(Lookup(filterKey).value)))
    ensures src.FromSlot? && filterKey != "" && target.Some? ==> r == Move(s, src.index, target.value)
  {
    if filterKey == "" || target.None? then s
    else
      var t := target.value;
      match src
      case FromSlot(from) => Move(s, from, t)
      case FromBank =>
        (match Lookup(filterKey)
         case None => s
         case Some(k) =>
           if s[t].None? || s[t].value.kind != filterKey then s[t := Some(DefaultConfig(k))] else s)
      case FromElsewhere => s
  }

  /** The document-level drop: a drag that started on slot `k` and ends
      outside every slot empties slot `k` and nothing else. */
  function DocumentDrop(s: seq<Option<Config>>, src: DragSource, onSlot: bool): (r: seq<Option<Config>>)
    requires |s| == SlotCount
    ensures |r| == SlotCount
    ensures src.FromSlot? && !onSlot ==> r[src.index] == None && OthersKept(s, r, src.index)
    ensures !src.FromSlot? || onSlot ==> r == s
  {
    if src.FromSlot? && !onSlot then s[src.index := None] else s
  }

  /** Every edit keeps four slots of well-formed configurations. */
  lemma EditsKeepSlotsOk(s: seq<Option<Config>>, filterKey: string, src: DragSource, target: Option<SlotIndex>, onSlot: bool)
    requires SlotsOk(s)
    ensures SlotsOk(SlotDrop(s, filterKey, src, target))
    ensures SlotsOk(DocumentDrop(s, src, onSlot))
  {
  }

  /** A bank drop is idempotent: dropping the same entry on the same slot
      again changes nothing. */
  lemma BankDropIdempotent(s: seq<Option<Config>>, filterKey: string, target: Option<SlotIndex>)
    requires |s| == SlotCount
    ensures SlotDrop(SlotDrop(s, filterKey, FromBank, target), filterKey, FromBank, target)
         == SlotDrop(s, filterKey, FromBank, target)
  {
  }

  /** Moving a slot onto another empty slot and back restores the slots. */
  lemma MoveBackRestores(s: seq<Option<Config>>, from: SlotIndex, to: SlotIndex)
    requires |s| == SlotCount && from != to && s[to].None?
    ensures Move(Move(s, from, to), to, from) == s
  {
  }
}

=== FILE: wrappers.dfy ===
/** Optional values: the model's stand-in for JavaScript's `null` / `undefined`. */
module Wrappers {

  datatype Option<+T> = None | Some(value: T)
}
